=== FILE: README.md ===
# EEPROM monitoring server: a Dafny model of the engine and its guards

The server polls optical transceivers over SSH. For every device it picks an
authentication method, dials, lists the fibre interfaces and asks each
interface for a dump of its EEPROM. A dump is text: groups of 32 hex digits,
each followed by a separator. The decoder turns the dump into a flat image of
128-byte CMIS pages, and five 16-bit big-endian words are read from fixed
offsets: temperature, supply voltage, Tx and Rx power, and OSNR. Batches that
fail are retried up to five times. The outcome becomes a stored status (OK,
Warning, SSH error or keyfile error), which the web inventory displays as a
status line. The inventory also validates device forms, keeps session cookies
and guards its pages with an authentication middleware.

The engine exists in four generations. `ems/monitor` is the current one, and
`ems/cmds`, `backend/cmds` and `backend/` are older. They share one codec: it is
modelled once (`Decoder`, `Hex`) and every copy is related to it. The web side
exists as the `ems` server and as the older `frontend`.

Modules, one file each:

- `results.dfy`: `Results` (Option, Result) and `Bytes` (uint8, uint16, int8, int16).
- `hex.dfy`: `Hex`. Base16 decoding with Go's error order, plus an encoder as its inverse.
- `decoder.dfy`: `Decoder`. The group-stripping decoder, as a recursive definition and as the source's loop, proved equal.
- `eeprom.dfy`: `Eeprom`. Offsets, raw field words, the two's complement temperature and the generator's writer.
- `storage.dfy`: `Storage`. Status constants, the device record and the four status-line tables, with one reader that parses every line back.
- `remote.dfy`: `Remote`. Authentication choice, interface listing, the EEPROM command and one polling pass over the interfaces.
- `monitor.dfy`: `Monitor`. The bounded retry machine, the status write-back and the cycle loop.
- `legacy.dfy`: `Legacy`. The older engines, covering the inline emission, the reconnect counter of `ems/cmds`, the decoder fallbacks, the value-receiver `auth`, the session-error counters and the sticky keyfile mark.
- `forms.dfy`: `Forms`. The login pattern as a scanner, ordered form validation in both generations, `prettifyError`, key-size checks and the sign-in credential predicate.
- `sessions.dfy`: `Sessions`. The pruning cookie store, the older cookie map, both auth middlewares, the logger and the sign-in page.

The clock, UUIDs, SSH, `ssh.ParsePrivateKey`, `net.ParseIP` and the regular
expressions for IP addresses are parameters. A session is an oracle: whether
the dial succeeds, the listing reply, and the reply to each command in each
pass. `time.Now` is read once per operation.

Two properties of the code shape the preconditions:

- The decoder slices `input[i:i+32]` with no length guard, so it is defined only on dumps whose length is 0 or 32 modulo 33 (`Decoder.WellFramed`). A final group of exactly 32 digits without a separator is accepted (`Decoder.BareFinalGroup`).
- The image accessors index the decoded image with no length check, so every accessor needs the image to cover its word (`Eeprom.Covers`), and `processData` needs a decoded image of at least 920 bytes (`Remote.Processable`).

## Model

| member | source | states |
|---|---|---|
| Hex.DecodeString | ems/monitor/decoder.go:16 | Decoding succeeds exactly when the text has even length and only hex digits (either case). Output byte j is 16 times digit 2j plus digit 2j+1. Otherwise the error names the leftmost non-digit, or the length error when every byte is a digit. |
| Hex.DecodeEncode | backend/cmds/decoder.go:11 | Decoding the lower-case Base16 encoding of any bytes gives those bytes back. |
| Decoder.RetainedPointwise | ems/monitor/decoder.go:12-14 | Character k of the retained text is input byte 33·(k/32) + k mod 32. The retained text is 32 characters per group, so byte 33k+32 of each group never appears in it. |
| Decoder.RetainedAllHex | backend/cmds/decoder.go:7-9 | The retained text is all hex exactly when every non-separator byte of the input is a hex digit. |
| Decoder.Decode | ems/monitor/decoder.go:10-17 | On a well-framed dump, decoding succeeds exactly when every non-separator byte is a hex digit. The image is 16 bytes per group, and byte j combines the two digits it came from. Every failure is an invalid-byte error. |
| Decoder.DefaultDecoder | ems/monitor/decoder.go:9-18 | The source's loop, appending 32 bytes per 33-byte step and then hex-decoding, computes exactly `Decode`. |
| Decoder.StripSeparators | ems/monitor/decoder.go:11-14 | The loop's accumulated text is the first 32 bytes of every 33-byte group in order, and every slice it takes stays inside a well-framed input. |
| Decoder.SeparatorIndependence | ems/cmds/decoder.go:10-12 | Two dumps that differ only at separator positions decode identically. |
| Decoder.FrameRoundTrip | ems/cmds/decoder.go:8-15 | Any image of 16n bytes, printed as n groups of 32 hex digits each followed by an arbitrary separator, decodes back to itself. |
| Decoder.RetainedFrame | ems/cmds/decoder.go:8-15 | The text kept from a framed dump is the lower-case Base16 encoding of the image, whatever the separators. |
| Decoder.BareFinalGroup | ems/monitor/decoder.go:12-13 | A dump whose last group lacks its separator is still well framed and decodes to the same image. |
| Decoder.RetainedIgnoresSeparators | backend/cmds/decoder.go:5-12 | The retained text depends only on the non-separator bytes. |
| Eeprom.Word | ems/monitor/eeprom.go:24 | The unsigned word's high byte is the byte at the offset and its low byte the next one (big-endian). |
| Eeprom.Signed | ems/monitor/eeprom.go:18 | Reinterpreting a 16-bit pattern as two's complement keeps it modulo 65536. It is negative exactly when the top bit is set. |
| Eeprom.TempMonValue | ems/cmds/eeprom.go:16 | Go's shift of the high byte as an int16, with wrap-around, combined with the low byte, equals the two's complement reading of the big-endian word at offset 14. |
| Eeprom.Celsius | ems/monitor/eeprom.go:17-21 | The temperature times 256 equals ten times the raw value, so it lies in [-1280, 1280). |
| Eeprom.Read | ems/cmds/eeprom.go:15-42 | Temperature is a signed value in [-32768, 32767] congruent to its word. Every other field is the unsigned word at its offset. |
| Eeprom.FieldIsolation | ems/monitor/eeprom.go:8-12 | A field depends only on the two bytes of its window, and every window ends within the first 920 bytes. |
| Eeprom.WindowsDisjoint | ems/cmds/eeprom.go:6-10 | The five two-byte windows (14, 16, 666, 698, 918) are pairwise disjoint. |
| Eeprom.ReadPutWord | backend/cmds/eeprom.go:21-41 | Writing a value big-endian at a field's offset and reading the field back gives the value, signed for temperature and unsigned otherwise. |
| Eeprom.PutWordIsolation | backend/cmds/eeprom.go:8-14 | Writing one field leaves every other field's value unchanged. |
| Eeprom.SampleTemperature | ems/monitor/decoder_test.go:6-18 | The 32-character sample dump decodes without error to 16 bytes whose temperature is -10.0 degrees. |
| Storage.ReadStamped | ems/storage/device.go:43-50 | Every timestamped status line is parsed back to its own label and exactly its timestamp, so the prefixes are pairwise distinguishable. |
| Storage.StatusConnected | ems/storage/device.go:37-54 | The line reads back as the meaning of the stored status: Undefined means never connected, the four known statuses carry the RFC 3339 timestamp, and any other value is the bare "STATUS UNKNOWN". |
| Storage.StatusConnectedDistinct | storage/device.go:27-44 | Two devices with different known statuses show different lines, whatever their timestamps. |
| Storage.UtilsStatusConnected | utils/device.go:28-41 | The line reads back as the utils meaning. Every status but Undefined, the default included, embeds the Connected text verbatim just before the closing parenthesis. |
| Storage.CommonStatusConnected | common/database.go:26-38 | The line reads back as the common meaning: status -1 or the timestamp "Never" means never connected, ahead of every other case, and status 2 reads as misconfigured credentials. |
| Storage.TablesAgreeOnLowStatuses | common/database.go:27-32 | For statuses -1, 0 and 1 with a real timestamp, the utils and common tables mean the same, and ems agrees with utils. |
| Remote.Auth | ems/monitor/remote_device.go:40-51 | An empty keyfile selects the device password. A non-empty keyfile selects key auth, and when the key does not parse the result is a key error with no password fallback. |
| Remote.Split | ems/monitor/remote_device.go:80 | `strings.Split` on newlines gives one more piece than there are newlines, no piece contains a newline, and joining the pieces gives the text back. |
| Remote.Interfaces | ems/monitor/remote_device.go:80-82 | Dropping the last piece leaves exactly as many interfaces as newlines, none containing a newline; an empty listing gives none. |
| Remote.TerminatedListingRestored | ems/cmds/remote_device.go:135-137 | When the listing is empty or ends in a newline, writing each interface followed by a newline reproduces it. |
| Remote.LastPieceEmpty | ems/monitor/remote_device.go:80-82 | The dropped last piece is empty exactly when the listing is empty or ends in a newline, so only then is no interface name lost. |
| Remote.InterfacesRestore | backend/cmds/remote_device.go:136-138 | In general the listing is the interfaces, each followed by a newline, plus the newline-free text after the last newline, which is dropped. |
| Remote.GetInterfaces | ems/monitor/remote_device.go:64-83 | The listing succeeds exactly when the command produced output. A session failure or a command failure becomes the corresponding error with no interfaces. |
| Remote.EepromCommand | ems/monitor/remote_device.go:17 | The command is "show-eeprom " followed by the interface name verbatim. |
| Remote.EepromCommandInjective | ems/monitor/remote_device.go:98 | Different interfaces are asked different commands. |
| Remote.Query | ems/monitor/remote_device.go:86-108 | A failed session and a failed command each end the interface with their own reason. Only a dump that decodes gives a measurement, and it is the one its image holds. A decode error comes only from a dump the device returned. |
| Remote.ProcessData | ems/monitor/remote_device.go:119-132 | A decode error is passed on as the failure. Otherwise the measurement holds the five fields of the decoded image. |
| Remote.ProcessFrame | backend/cmds/remote_device.go:168-181 | A framed image of at least 920 bytes is processed to the measurement of the image itself. |
| Remote.MonitorInterfaces | ems/monitor/remote_device.go:85-117 | Measurements plus failures number exactly the interfaces. There are no failures exactly when every interface's query succeeds. |
| Remote.Collect | ems/monitor/remote_device.go:86-114 | Sorting the outcomes puts every interface in exactly one of the two lists, and the error stays nil exactly when every outcome is a success. |
| Remote.CollectSources | ems/monitor/remote_device.go:104-113 | Every measurement and every failure carries the outcome found at its own interface's position. |
| Remote.CleanCollect | ems/monitor/remote_device.go:110-113 | With no failures, measurement i is interface i with its own measurement. |
| Remote.BatchContents | ems/monitor/remote_device.go:104-113 | Every measurement and every failure is its own interface's query result. With no failures, the measurements are the interfaces' results one for one, in order. |
| Remote.BatchOrder | ems/monitor/remote_device.go:86-114 | The measured interfaces appear in list order, as a subsequence of the interfaces. |
| Monitor.InsertsOf | ems/monitor/monitor.go:123-125 | One insert per measurement, in order, each carrying the hostname, the interface and the measurement. |
| Monitor.Retry | ems/monitor/monitor.go:114-128 | Given the five passes' outcomes, the failed-run counter never decreases and never exceeds the limit of five, and a run that reaches five inserts nothing. |
| Monitor.RetryFirstClean | ems/monitor/monitor.go:115-127 | Every pass before the one reported failed. The loop stops at the first clean pass and inserts exactly that pass's measurements. When every pass fails it ends at five and inserts nothing. |
| Monitor.MonitorDevice | ems/monitor/monitor.go:81-139 | A key that does not parse gives the keyfile error before any dial. A dial or listing failure gives the SSH error. After that, 0 failed passes mean OK, 1 to 4 mean Warning, and 5 mean the SSH error with nothing inserted. |
| Monitor.RunsStatus | ems/monitor/monitor.go:130-138 | No failed pass gives OK, one to four give Warning, and all five give the SSH error. |
| Monitor.MonitorDeviceInserts | ems/monitor/monitor.go:116-127 | All or nothing: passes before the reported one failed. Unless all five failed, the inserts are exactly one per interface of the clean pass, in order, tagged with the hostname. |
| Monitor.NoInterfacesIsOK | ems/monitor/monitor.go:114-132 | A reachable device that lists no interfaces ends OK at the first pass with no inserts. |
| Monitor.UpdateStatus | ems/monitor/monitor.go:141-147 | The status is stored. The connection time is refreshed exactly when the status is OK. No other field changes. |
| Monitor.RunCycle | ems/monitor/monitor.go:50-75 | A cycle writes every fetched device exactly once, in order, with the status its own monitoring produced. The sink receives each device's own inserts, laid end to end in device order. |
| Monitor.Run | ems/monitor/monitor.go:30-48 | The loop runs until the first cancelled wake-up. The writes and the inserts are those of each earlier wake-up's cycle over the devices it fetched, in wake-up order. A failed fetch contributes nothing. The writes number exactly the devices fetched. |
| Legacy.CmdsPass | ems/cmds/remote_device.go:140-165 | Inline emission inserts at most one measurement per interface. The pass fails exactly when some interface's query fails. |
| Legacy.CmdsPassIsBatch | backend/cmds/remote_device.go:141-166 | The inline pass inserts exactly the measurements of the current batch and fails exactly when the batch has failures. |
| Legacy.CmdsPartialEmission | ems/cmds/remote_device.go:155-161 | Every interface whose query succeeds is inserted, even in a pass that fails. |
| Legacy.CmdsMonitor | ems/cmds/remote_device.go:35-92 | The status is one of OK, Warning, SSH error and keyfile error. A keyfile error occurs exactly when the key does not parse. A dial or listing failure on a connection gives the SSH error. |
| Legacy.CmdsPolls | ems/cmds/remote_device.go:65-91 | Once authenticated, the polling loop ends OK, Warning or with the SSH error, never with a keyfile error. |
| Legacy.CmdsFinalStatus | ems/cmds/remote_device.go:87-91 | While failures stay within five, the loop ends OK when no pass failed and Warning otherwise. |
| Legacy.CmdsReconnectOnSixth | ems/cmds/remote_device.go:73-82 | The reconnect fires at the sixth failure (the counter exceeds five). It then restarts from authentication on the next connection, or ends with the SSH error when closing the client fails. |
| Legacy.DecodeEeprom | backend/cmds/ssh.go:25-43 | Decoder 0 strips and hex-decodes, and on a hex error returns the input unchanged without an error. Any other decoder returns the input unchanged. |
| Legacy.UnifyEeprom | backend/ssh.go:19-36 | The output is the input exactly when decoding fails or the input is empty. Otherwise it is the decoded image. |
| Legacy.UnifyFrame | backend/ssh.go:19-31 | A framed image unifies back to the image, as in the current decoder. |
| Legacy.BackendProcessData | backend/ssh.go:38-47 | When the dump decodes, the measurement is the current engine's. When it does not, the raw dump itself is read as the image. |
| Legacy.ValueReceiverAuth | backend/cmds/ssh.go:73-87 | Password auth is chosen exactly when the key is nil or does not parse, and key auth uses the device's key. The status mark is lost on the copy. |
| Legacy.AuthGenerations | backend/cmds/remote_device.go:95-106 | For a non-empty key the generations agree when it parses. When it does not, the newer one reports an error where the value-receiver one falls back to the password. |
| Legacy.SessionCounterPoll | backend/cmds/ssh.go:150-177 | The session-error counter never decreases. The inserted interfaces are a subsequence of those polled, and each of them answered with a dump. |
| Legacy.SessionCounterClosedForm | backend/cmds/ssh.go:152-170 | With F session failures and incoming counter c: a reconnect happens exactly when F ≥ 1 and c + F > 3. Without a reconnect the counter ends at c + F. With one it ends at max(c, 3). Command failures are skipped without counting. |
| Legacy.OpenClientInsertsAnswered | backend/cmds/ssh.go:150-174 | On a client that stays open, a pass without a reconnect inserts exactly the interfaces answered with a dump, in listing order, and a pass with no session failures never reconnects. |
| Legacy.ClosedClientNeverInserts | backend/cmds/ssh.go:119-143 | Polling on the client closed after the listing: every session fails, nothing is inserted, and the pass reconnects exactly when the listing is non-empty and the counter plus the interface count exceeds three. |
| Legacy.BackendPass | backend/cmds/ssh.go:151 | Iterating to `len-1` of the split listing polls exactly the listed interfaces; the split has one more element. |
| Legacy.FirstErrorPoll | backend/ssh.go:101-133 | In the latest backend loop, a reconnect happens exactly when some session fails to open. Inserts follow interface order, and each inserted interface answered with a dump. |
| Legacy.FirstErrorIsExhaustedCounter | backend/ssh.go:109-118 | That loop behaves as the counting loop entered with a counter already above two. |
| Legacy.CreateSshAuth | backend/ssh.go:49-72 | Password auth is chosen exactly when the key is nil, does not parse, or status is 2. An unparsable key sets status 2, a key auth sets status 10, and nothing else of the device changes. |
| Legacy.KeyfileMarkSticky | backend/ssh.go:55-59 | Once status is 2, every later client creation keeps it and chooses the password. |
| Forms.MatchLogin | ems/templates/form.go:13 | The scanner accepts exactly the logins of length at least 2 with a letter first, a letter or digit last, and letters, digits, `-`, `_` or `.` in between. |
| Forms.Validate | ems/templates/form.go:28-55 | No error exactly when every check passes, and then the form is unchanged. Otherwise the first failing check in the order IP type, empty fields, login, IP, key size names the error. Only that check's field is reset: IP type to 4, login cleared, IP cleared, key dropped; empty fields reset nothing. |
| Forms.Revalidate | ems/templates/form.go:29-54 | Resubmitting a rejected form: after a cleared login or address, or after empty fields, it fails as empty fields with nothing more changed. A dropped key no longer stands in the way. The IP-type error never recurs. |
| Forms.FormTestCases | ems/templates/form_test.go:14-71 | The repository's form cases: the valid form passes, and each bad field gives its error and reset. A key of 20480 bytes passes and 20481 fails. |
| Forms.ValidateInput | frontend/cmds/server.go:263-287 | A bad IP type resets the type to 4 and clears hostname, IP and login. Empty fields change nothing. A bad login clears the login only, and an unparsable IP clears the IP only. There is no key check. |
| Forms.ValidatorsAgree | frontend/handlers.go:126-147 | The two generations report the same error for the IP type, empty fields and login checks. Every form the ems form accepts, the older one accepts too. The older one additionally accepts only forms that the ems form rejects for their IP address or key size. |
| Forms.Prettify | frontend/cmds/server.go:314-316 | The message gets an upper-cased first letter, the rest unchanged, and ", try again" appended. |
| Forms.HandlersMessagesArePrettified | frontend/handlers.go:132-143 | The capitalised messages of the handlers are the prettified ems messages; the IP-type message lacks the ", try again" suffix. |
| Forms.GetPattern | frontend/handlers.go:22-27 | Version 6 selects the IPv6 pattern and every other version the IPv4 one. |
| Forms.PatternAfterValidation | frontend/handlers.go:126-133 | After validation the stored IP type selects the IPv6 pattern exactly when type 6 was submitted. The reset type 4 selects IPv4. |
| Forms.RetrieveKey | frontend/cmds/server.go:289-312 | No file gives no key and no error. A size of 0 or above 20480 is a key-size error; a negative declared size passes the check. A failed upload is a form-file error. A file of size 1 to 20480 gives its copied bytes when the copy succeeds, and a copy error when it fails. A key returned is the file's contents. |
| Forms.KeySizeBoundsAgree | ems/templates/form.go:49-52 | A key the upload check accepts also passes the form's size check. |
| Forms.GetKey | frontend/handlers.go:149-173 | No error exactly when the upload check succeeds, and then the key is its result. The size error carries the prettified "wrong key size" message, and no key is returned with an error. |
| Forms.DeviceLoginSignsIn | frontend/handlers.go:51 | Every valid device login of at most 32 characters is a valid sign-in login. The sign-in pattern is wider: "-a" is accepted there and rejected as a device login. |
| Forms.AbsentUserSignsIn | frontend/cmds/server.go:68 | As written (`Forms.SignInAsWritten`: the login pattern and `Users[login] == password`), a well-formed login that is not configured signs in with the empty password. |
| Forms.SignInOnlyConfiguredUsers | frontend/handlers.go:187 | The corrected check (`Forms.SignInAccepted`) accepts exactly the configured users whose stored password matches, which is what `Forms.SignInAsWritten` accepts for them, and never an absent user. |
| Sessions.Prune | ems/cookies/cookies.go:80-86 | Pruning keeps exactly the entries that have not expired, with their values, and leaves the jar live. |
| Sessions.PruneExpired | ems/cookies/cookies.go:81-85 | The range loop that deletes expired entries as it goes computes exactly `Prune`. |
| Sessions.PruneLive | ems/cookies/cookies.go:93-95 | A live jar is left unchanged, so pruning is idempotent. |
| Sessions.Create | ems/cookies/cookies.go:24-42 | After pruning, the token maps to the user until now plus the store's lifetime. The other live sessions are untouched, and a fresh token adds exactly one. |
| Sessions.Delete | ems/cookies/cookies.go:44-61 | A nil token only prunes. A token is forgotten while every other live session stays. |
| Sessions.DeleteIdempotent | ems/cookies/cookies.go:47-60 | Deleting twice is deleting once. |
| Sessions.IsSignedIn | ems/cookies/cookies.go:63-78 | True exactly when a presented token is stored and not expired. Otherwise the presented token is removed; the other live sessions stay. |
| Sessions.StoreStaysLive | ems/cookies/cookies.go:25-64 | With a non-negative lifetime, no session in the store has expired after any operation, at that operation's instant. |
| Sessions.StoreTests | ems/cookies/cookies_test.go:11-71 | Creating a session gives one, and deleting it leaves none. Its token is signed in within the lifetime, and a request without a cookie is not. |
| Sessions.CreateCookie | frontend/cmds/cookie.go:24-40 | The token maps to the user for fifteen minutes, and nothing else changes. |
| Sessions.DeleteCookie | frontend/cmds/cookie.go:42-61 | Without a cookie the map is unchanged. With one, exactly that token is removed. |
| Sessions.JarSignedIn | frontend/cmds/server.go:41-54 | True exactly when the presented session is stored and live. Otherwise the presented token is deleted. |
| Sessions.HandlersSignedIn | frontend/handlers.go:106-123 | True exactly when the presented session is stored and live. |
| Sessions.SignedInChecksAgree | frontend/api/auth.go:39-52 | The handlers' check, which deletes only expired tokens, has the same effect as the server's. Both answer as the pruning store does, but forget at most one session. |
| Sessions.AuthDecision | ems/api/middleware.go:24-49 | Sign-in pages send a signed-in user to "/". Public operations and signed-in requests reach the handler. Everything else is redirected to "/signin". All three as if-and-only-ifs. |
| Sessions.EmsAuth | ems/api/middleware.go:27-46 | The decision follows the table under the store's answer. The static files leave the store untouched, and otherwise the store is left live. |
| Sessions.FrontAuth | frontend/api/auth.go:17-37 | The same table with the frontend's static operation names. At most the presented token is forgotten, and a protected request that goes through changes nothing. |
| Sessions.SignedInNeverSentToSignIn | ems/api/middleware.go:42-46 | In neither generation is a signed-in user redirected to "/signin". |
| Sessions.Logger | ems/api/middleware.go:51-65 | The handler's response is always passed on unchanged. An operation goes unlogged exactly when the auth middleware lets it through whether or not the request is signed in, which are the style sheet and the favicon. |
| Sessions.SignInPage | frontend/cmds/server.go:56-80 | A signed-in request goes home. An accepted attempt creates a session for the login under the new token, and the page goes home only for configured users with the right password. Without a live session, the page goes home exactly when an attempt is posted and accepted. Otherwise the form is shown with "Wrong credentials, try again" after a posted attempt and with no message on a plain visit, and the jar is the sign-in check's own: at most the presented token is forgotten. |

## Left out

- SSH transport (dial, sessions, `CombinedOutput`, `ParsePrivateKey`, host keys) is an oracle of outcomes. The deferred closes of sessions and clients are not observable in a sequential model.
- The worker pool, goroutines, channels and wait groups of every generation: a cycle is a sequential fold over the device list. Each device's outcome depends only on its own link.
- The wall-clock-bounded loops with `goto` reconnects in `ems/cmds`, `backend/cmds` and `backend/`. `Legacy.CmdsMonitor` replaces the deadline with a finite list of pass outcomes and a numbered sequence of connections. The other two are modelled one polling pass at a time (`Legacy.SessionCounterPoll`, `Legacy.FirstErrorPoll`).
- Floating point: voltage, OSNR, and the log10 dBm conversion of the power fields are kept as their raw 16-bit words. Only the temperature, which is exact in double precision, is a real.
- The InfluxDB sink is the list of inserts. MySQL and its queries, base64 columns and configuration files are not part of this model.
- HTTP plumbing: templates, multipart form parsing, setting response cookies, log lines.
- `net.ParseIP`, the IPv4 and IPv6 regular expressions, UUID generation and `time.Now` are parameters. Where the source reads the clock several times in one operation, the model reads it once.
- The EEPROM fixture generator is not part of this model, except for its big-endian writer (`Eeprom.PutWord`).
- `GetDevice` of utils/device.go returns its receiver unchanged and needs no model.
- Monitor.RunCycle: reads the clock once per cycle (`Tick.now`), while `updateStatus` (ems/monitor/monitor.go:141-145) reads `time.Now()` for each device after that device has been monitored. Devices set OK in the same cycle therefore share one `Connected` time here, and the model does not promise the increasing times the source would record.
- Legacy.SessionCounterPoll: models polling on a client that stays open, as corrected under Findings. backend/cmds/ssh.go:119 closes the client before polling on it (`Legacy.ClosedClientNeverInserts`). Inserts are recorded by interface name only, without the measured values. It requires every returned dump to be well framed and to unify to at least 920 bytes (`Legacy.BackendAnswersProcessable`), because `ProcessData` (backend/cmds/ssh.go:172) slices without a guard (backend/cmds/ssh.go:28-29) and indexes the unified dump without a guard (backend/cmds/eeprom.go:21-41), so any other dump panics.
- Legacy.FirstErrorPoll: inserts are recorded by interface name only, without the measured values. It requires every returned dump to be processable as `Legacy.SessionCounterPoll` does, because `ProcessData` (backend/ssh.go:127) slices without a guard (backend/ssh.go:22-23) and panics otherwise.
- Legacy.BackendPass: requires the same of the listed interfaces' dumps, for the same reason.
- Sessions.SignInPage: models the sign-in check as corrected under Findings, not as written.
- Decoder.Decode: requires `WellFramed`, because any other length panics or reads into the slice's spare capacity (ems/monitor/decoder.go:12-13); those lengths have no error path.
- Decoder.DefaultDecoder: requires `WellFramed`, for the same reason as `Decoder.Decode`.
- Remote.ProcessData: requires `Processable`, because a decoded image shorter than 920 bytes panics in the accessors (ems/monitor/eeprom.go:18-42).
- Eeprom.Word: requires `Covers`, because an image that does not reach the word panics on indexing (ems/monitor/eeprom.go:18-42).
- Forms.GetKey: the file-copy error is an oracle outcome of the upload, since reading the file is I/O.

## Findings

| source | as written | input that shows it | evidently intended | confidence | as-written member | corrected member |
|---|---|---|---|---|---|---|
| frontend/cmds/server.go:68 | The credential check compares `Users[login] == password`, and a Go map read of an absent key yields "". | Any login matching the pattern that is not configured, for example "mallory", with an empty password. | Only configured users whose stored password matches may sign in. | not executed | Forms.AbsentUserSignsIn | Forms.SignInOnlyConfiguredUsers |
| backend/cmds/ssh.go:119 | `MonitorData` calls `client.Close()` right after reading the listing, then polls every interface with `client.NewSession()` on that closed client (lines 136 and 152). After each reconnect (line 142) it closes the new client the same way. | Any device whose listing names at least one interface: every session fails, no interface is ever inserted, and the goroutine keeps reconnecting. | The client stays open while the interfaces are polled, and is closed only before a reconnect (line 137) or by the deferred close (line 101). | not executed | Legacy.ClosedClientNeverInserts | Legacy.OpenClientInsertsAnswered |

=== FILE: decoder.dfy ===
/**
  The EEPROM text codec (ems/monitor/decoder.go; the copies in ems/cmds/decoder.go
  and backend/cmds/decoder.go are the same loop). A device prints its EEPROM as
  lines of 32 hexadecimal digits, each followed by one separator byte. The decoder
  keeps the first 32 bytes of every 33-byte group, drops the 33rd, and
  Base16-decodes the concatenation.
 */
module Decoder {
  import opened Bytes
  import opened Results
  import Hex
  import opened Seqs

  /** A decoded binary EEPROM image. */
  type Eeprom = seq<uint8>

  /**
    The loop slices `input[i:i+32]` for i = 0, 33, 66, ... with no length guard.
    Only lengths that leave a complete final group, with or without its
    separator, stay inside the input.
   */
  predicate WellFramed(input: seq<uint8>) {
    |input| % 33 == 0 || |input| % 33 == 32
  }

  /** Every byte outside the separator positions is a hexadecimal digit. */
  predicate Decodable(input: seq<uint8>) {
    forall p :: 0 <= p < |input| && !IsSeparatorPos(p) ==> Hex.IsHexDigit(input[p])
  }

  /** The number of loop iterations, one per (possibly separator-less) group. */
  function Groups(input: seq<uint8>): nat {
    (|input| + 32) / 33
  }

  /** Separator positions: the 33rd byte of every group. */
  predicate IsSeparatorPos(p: nat) {
    p % 33 == 32
  }

  /** Where the k-th retained byte sits in the input. */
  function RetainedPos(k: nat): nat {
    33 * (k / 32) + k % 32
  }

  /** Where the first digit of decoded byte j sits in the input. */
  function ByteSource(j: nat): nat {
    33 * (j / 16) + 2 * (j % 16)
  }

  lemma RetainedPosShift(k: nat)
    requires k >= 32
    ensures RetainedPos(k) == 33 + RetainedPos(k - 32)
  {
    var q := (k - 32) / 32;
    var r := (k - 32) % 32;
    assert k == 32 * (q + 1) + r;
    assert k / 32 == q + 1 && k % 32 == r;
  }

  /** Every non-separator position p below n is retained, as some byte k of the text. */
  lemma RetainedIndexOf(p: nat, n: nat) returns (k: nat)
    requires p < n && !IsSeparatorPos(p)
    ensures k < 32 * ((n + 32) / 33) && RetainedPos(k) == p
  {
    var g, r := p / 33, p % 33;
    assert p == 33 * g + r && r < 32;
    k := 32 * g + r;
    assert k / 32 == g && k % 32 == r;
    assert n + 32 >= 33 * (g + 1);
    assert (n + 32) / 33 >= g + 1;
  }

  lemma RetainedPosNotSeparator(k: nat)
    ensures !IsSeparatorPos(RetainedPos(k))
  {
    var q := k / 32;
    var r := k % 32;
    assert RetainedPos(k) == 33 * q + r;
    assert (33 * q + r) % 33 == r;
  }

  lemma ByteSourcePairs(j: nat)
    ensures RetainedPos(2 * j) == ByteSource(j)
    ensures RetainedPos(2 * j + 1) == ByteSource(j) + 1
  {
    var q := j / 16;
    var r := j % 16;
    assert j == 16 * q + r;
    assert 2 * j == 32 * q + 2 * r && 2 * r < 32;
    assert (2 * j) / 32 == q && (2 * j) % 32 == 2 * r;
    assert (2 * j + 1) / 32 == q && (2 * j + 1) % 32 == 2 * r + 1;
  }

  /** The concatenation of `input[33k .. 33k+32)` over all groups k. */
  function Retained(input: seq<uint8>): (text: seq<uint8>)
    requires WellFramed(input)
    ensures |text| == 32 * Groups(input)
    decreases |input|
  {
    if |input| < 33 then input
    else input[..32] + Retained(input[33..])
  }

  /** Retained byte k is the input byte at `RetainedPos(k)`. */
  lemma {:induction false} RetainedPointwise(input: seq<uint8>)
    requires WellFramed(input)
    ensures forall k :: 0 <= k < |Retained(input)| ==>
              RetainedPos(k) < |input| && Retained(input)[k] == input[RetainedPos(k)]
    decreases |input|
  {
    if |input| >= 33 {
      var tail := input[33..];
      RetainedPointwise(tail);
      var text := Retained(input);
      forall k | 0 <= k < |text|
        ensures RetainedPos(k) < |input| && text[k] == input[RetainedPos(k)]
      {
        if k >= 32 {
          RetainedPosShift(k);
          assert text[k] == Retained(tail)[k - 32];
        }
      }
    }
  }

  /** Two inputs that agree everywhere except at separator positions keep the same text. */
  lemma RetainedIgnoresSeparators(a: seq<uint8>, b: seq<uint8>)
    requires WellFramed(a) && |a| == |b|
    requires forall p :: 0 <= p < |a| && !IsSeparatorPos(p) ==> a[p] == b[p]
    ensures Retained(a) == Retained(b)
  {
    var ta, tb := Retained(a), Retained(b);
    RetainedPointwise(a);
    RetainedPointwise(b);
    forall k | 0 <= k < |ta|
      ensures ta[k] == tb[k]
    {
      RetainedPosNotSeparator(k);
    }
  }

  lemma RetainedAllHex(input: seq<uint8>)
    requires WellFramed(input)
    ensures Hex.AllHex(Retained(input)) <==> Decodable(input)
  {
    var text := Retained(input);
    RetainedPointwise(input);
    if Hex.AllHex(text) {
      forall p | 0 <= p < |input| && !IsSeparatorPos(p)
        ensures Hex.IsHexDigit(input[p])
      {
        var k := RetainedIndexOf(p, |input|);
        assert text[k] == input[RetainedPos(k)];
      }
    }
    if Decodable(input) {
      forall k | 0 <= k < |text|
        ensures Hex.IsHexDigit(text[k])
      {
        RetainedPosNotSeparator(k);
      }
    }
  }

  /**
    `DefaultDecoder` stated declaratively: the decode succeeds iff every
    non-separator byte is a hex digit, and decoded byte j is built from the two
    digits at `ByteSource(j)` and the byte after it.
   */
  function Decode(input: seq<uint8>): (r: Result<Eeprom, Hex.HexError>)
    requires WellFramed(input)
    ensures r.Ok? <==> Decodable(input)
    ensures r.Err? ==> r.error.InvalidByte?
    ensures r.Ok? ==> |r.value| == 16 * Groups(input)
    ensures r.Ok? ==> forall j :: 0 <= j < |r.value| ==>
              ByteSource(j) + 1 < |input| &&
              Hex.IsHexDigit(input[ByteSource(j)]) && Hex.IsHexDigit(input[ByteSource(j) + 1]) &&
              r.value[j] == 16 * Hex.DigitValue(input[ByteSource(j)]) + Hex.DigitValue(input[ByteSource(j) + 1])
  {
    var text := Retained(input);
    assert |text| % 2 == 0;
    RetainedAllHex(input);
    var r := Hex.DecodeString(text);
    assert r.Ok? <==> Hex.AllHex(text);
    if r.Ok? then DecodedBytes(input); r else r
  }

  lemma DecodedBytes(input: seq<uint8>)
    requires WellFramed(input) && Hex.DecodeString(Retained(input)).Ok?
    ensures var v := Hex.DecodeString(Retained(input)).value;
            forall j :: 0 <= j < |v| ==>
              ByteSource(j) + 1 < |input| &&
              Hex.IsHexDigit(input[ByteSource(j)]) && Hex.IsHexDigit(input[ByteSource(j) + 1]) &&
              v[j] == 16 * Hex.DigitValue(input[ByteSource(j)]) + Hex.DigitValue(input[ByteSource(j) + 1])
  {
    var v := Hex.DecodeString(Retained(input)).value;
    forall j | 0 <= j < |v|
      ensures ByteSource(j) + 1 < |input| &&
              Hex.IsHexDigit(input[ByteSource(j)]) && Hex.IsHexDigit(input[ByteSource(j) + 1]) &&
              v[j] == 16 * Hex.DigitValue(input[ByteSource(j)]) + Hex.DigitValue(input[ByteSource(j) + 1])
    {
      DecodedByte(input, j);
    }
  }

  /** Decoded byte j comes from the two digits at `ByteSource(j)`. */
  lemma DecodedByte(input: seq<uint8>, j: nat)
    requires WellFramed(input) && Hex.DecodeString(Retained(input)).Ok?
    requires j < |Hex.DecodeString(Retained(input)).value|
    ensures var v := Hex.DecodeString(Retained(input)).value;
            ByteSource(j) + 1 < |input| &&
            Hex.IsHexDigit(input[ByteSource(j)]) && Hex.IsHexDigit(input[ByteSource(j) + 1]) &&
            v[j] == 16 * Hex.DigitValue(input[ByteSource(j)]) + Hex.DigitValue(input[ByteSource(j) + 1])
  {
    var text := Retained(input);
    ByteSourcePairs(j);
    RetainedAt(input, 2 * j);
    RetainedAt(input, 2 * j + 1);
    assert Hex.IsHexDigit(text[2 * j]) && Hex.IsHexDigit(text[2 * j + 1]);
  }

  lemma RetainedAt(input: seq<uint8>, k: nat)
    requires WellFramed(input) && k < |Retained(input)|
    ensures RetainedPos(k) < |input| && Retained(input)[k] == input[RetainedPos(k)]
  {
    RetainedPointwise(input);
  }

  /** Separator independence: the byte at every position 33k+32 is ignored. */
  lemma {:induction false} SeparatorIndependence(a: seq<uint8>, b: seq<uint8>)
    requires WellFramed(a) && |a| == |b|
    requires forall p :: 0 <= p < |a| && !IsSeparatorPos(p) ==> a[p] == b[p]
    ensures Decode(a) == Decode(b)
  {
    RetainedIgnoresSeparators(a, b);
  }

  /**
    The Go loop itself: append `input[i:i+32]` for i = 0, 33, 66, ... while
    i < len(input), then hex-decode the accumulated text.
   */
  method DefaultDecoder(input: seq<uint8>) returns (r: Result<Eeprom, Hex.HexError>)
    requires WellFramed(input)
    ensures r == Decode(input)
  {
    var temp := StripSeparators(input);
    r := Hex.DecodeString(temp);
    DecodeOfRetained(input);
  }

  /** The loop that appends `input[i:i+32]` for every group start i. */
  method StripSeparators(input: seq<uint8>) returns (temp: seq<uint8>)
    requires WellFramed(input)
    ensures temp == Retained(input)
  {
    temp := [];
    var i := 0;
    assert input[i..] == input;
    while i < |input|
      invariant i <= |input| + 1
      invariant i <= |input| ==> WellFramed(input[i..]) && temp + Retained(input[i..]) == Retained(input)
      invariant i > |input| ==> temp == Retained(input)
    {
      StripStep(input, i, temp);
      temp := temp + input[i..i + 32];
      i := i + 33;
    }
    if i <= |input| {
      EmptyTail(input, i, temp);
    }
  }

  /** One iteration keeps the loop invariant: the slice is in bounds and one group moves into `temp`. */
  lemma StripStep(input: seq<uint8>, i: nat, temp: seq<uint8>)
    requires WellFramed(input) && i < |input|
    requires WellFramed(input[i..]) && temp + Retained(input[i..]) == Retained(input)
    ensures i + 32 <= |input|
    ensures i + 33 <= |input| ==>
              WellFramed(input[i + 33..]) && (temp + input[i..i + 32]) + Retained(input[i + 33..]) == Retained(input)
    ensures i + 33 > |input| ==> temp + input[i..i + 32] == Retained(input)
  {
    var rest := input[i..];
    RetainedStep(rest);
    SliceOfSuffix(input, i, 32);
    if i + 33 <= |input| {
      DropOfSuffix(input, i, 33);
      AppendAssoc(temp, input[i..i + 32], Retained(input[i + 33..]));
    }
  }

  lemma EmptyTail(input: seq<uint8>, i: nat, temp: seq<uint8>)
    requires WellFramed(input) && i == |input| && WellFramed(input[i..]) && temp + Retained(input[i..]) == Retained(input)
    ensures temp == Retained(input)
  {
    assert input[i..] == [];
  }

  lemma DecodeOfRetained(input: seq<uint8>)
    requires WellFramed(input)
    ensures Decode(input) == Hex.DecodeString(Retained(input))
  {
  }

  /** One iteration of the loop: the slice stays in bounds and peels one group off `Retained`. */
  lemma RetainedStep(rest: seq<uint8>)
    requires WellFramed(rest) && |rest| > 0
    ensures 32 <= |rest|
    ensures 33 <= |rest| ==> WellFramed(rest[33..]) && Retained(rest) == rest[..32] + Retained(rest[33..])
    ensures 33 > |rest| ==> |rest| == 32 && Retained(rest) == rest[..32]
  {
    if |rest| >= 33 {
      ModShift(|rest|);
    }
  }

  lemma ModShift(n: nat)
    requires n >= 33
    ensures (n - 33) % 33 == n % 33
  {
  }

  /** A device dump: each 16-byte row printed as 32 digits followed by its separator. */
  function Frame(data: seq<uint8>, separators: seq<uint8>): (dump: seq<uint8>)
    requires |data| == 16 * |separators|
    ensures |dump| == 33 * |separators|
  {
    if |separators| == 0 then []
    else Hex.Encode(data[..16]) + [separators[0]] + Frame(data[16..], separators[1..])
  }

  lemma {:induction false} EncodeAppend(a: seq<uint8>, b: seq<uint8>)
    ensures Hex.Encode(a + b) == Hex.Encode(a) + Hex.Encode(b)
  {
    if |a| > 0 {
      EncodeAppend(a[1..], b);
      assert (a + b)[0] == a[0];
      assert (a + b)[1..] == a[1..] + b;
      Hex.EncodeCons(a + b);
      Hex.EncodeCons(a);
      AppendAssoc([Hex.Digit(a[0] / 16), Hex.Digit(a[0] % 16)], Hex.Encode(a[1..]), Hex.Encode(b));
    } else {
      assert a + b == b;
    }
  }

  lemma {:induction false} RetainedFrame(data: seq<uint8>, separators: seq<uint8>)
    requires |data| == 16 * |separators|
    ensures WellFramed(Frame(data, separators))
    ensures Retained(Frame(data, separators)) == Hex.Encode(data)
    decreases |separators|
  {
    if |separators| > 0 {
      var dump := Frame(data, separators);
      var tail := Frame(data[16..], separators[1..]);
      RetainedFrame(data[16..], separators[1..]);
      assert dump[33..] == tail;
      assert dump[..32] == Hex.Encode(data[..16]);
      EncodeAppend(data[..16], data[16..]);
      assert data[..16] + data[16..] == data;
    }
  }

  /** Round trip: every dump of n rows with arbitrary separators decodes to its 16n bytes. */
  lemma FrameRoundTrip(data: seq<uint8>, separators: seq<uint8>)
    requires |data| == 16 * |separators|
    ensures WellFramed(Frame(data, separators))
    ensures Decode(Frame(data, separators)) == Ok(data)
  {
    RetainedFrame(data, separators);
    Hex.DecodeEncode(data);
  }

  /** A final group printed without its separator decodes the same as with it. */
  lemma BareFinalGroup(data: seq<uint8>, separators: seq<uint8>)
    requires |data| == 16 * |separators| && |separators| > 0
    ensures var dump := Frame(data, separators);
            WellFramed(dump[..|dump| - 1]) && Decode(dump[..|dump| - 1]) == Ok(data)
  {
    var dump := Frame(data, separators);
    RetainedFrame(data, separators);
    MultipleOf33(|separators|);
    DecodeWithoutLast(dump, data);
  }

  lemma MultipleOf33(n: nat)
    ensures (33 * n) % 33 == 0
  {
  }

  lemma DecodeWithoutLast(dump: seq<uint8>, data: seq<uint8>)
    requires |dump| > 0 && |dump| % 33 == 0 && Retained(dump) == Hex.Encode(data)
    ensures WellFramed(dump[..|dump| - 1]) && Decode(dump[..|dump| - 1]) == Ok(data)
  {
    RetainedDropLast(dump);
    DecodeEncoded(dump[..|dump| - 1], data);
  }

  /** An input whose retained text is the encoding of `data` decodes to `data`. */
  lemma DecodeEncoded(input: seq<uint8>, data: seq<uint8>)
    requires WellFramed(input) && Retained(input) == Hex.Encode(data)
    ensures Decode(input) == Ok(data)
  {
    DecodeOfRetained(input);
    Hex.DecodeEncode(data);
  }

  lemma RetainedDropLast(dump: seq<uint8>)
    requires |dump| > 0 && |dump| % 33 == 0
    ensures WellFramed(dump[..|dump| - 1])
    ensures Retained(dump[..|dump| - 1]) == Retained(dump)
  {
    var bare := dump[..|dump| - 1];
    DropSeparatorLength(|dump|);
    var tb, td := Retained(bare), Retained(dump);
    forall k | 0 <= k < |td|
      ensures tb[k] == td[k]
    {
      RetainedAt(bare, k);
      RetainedAt(dump, k);
      RetainedPosNotSeparator(k);
    }
  }

  /** Dropping the final separator keeps the number of groups. */
  lemma DropSeparatorLength(n: nat)
    requires n > 0 && n % 33 == 0
    ensures (n - 1) % 33 == 32 && (n - 1 + 32) / 33 == (n + 32) / 33 && IsSeparatorPos(n - 1)
  {
  }
}

=== FILE: eeprom.dfy ===
/**
  The decoded EEPROM image of an optical module and the five monitored fields.

  The image is a flat run of 128-byte pages in the order Low, 00h, 01h, 02h, 04h,
  11h, 12h, 25h, so flat page 5 is OIF CMIS Page 11h and flat page 7 is Page 25h.
  Every field is a 16-bit big-endian word; only TempMonValue is signed. None of
  the accessors checks the length of the image, so each one requires it.
 */
module Eeprom {
  import opened Bytes
  import Decoder
  import Hex

  type Image = seq<uint8>

  const PageLength: nat := 128

  /** Lower page, TempMonValue. */
  const TempOffset: nat := 0 * PageLength + 0x0E
  /** Lower page, VccMonVoltage. */
  const VccOffset: nat := 0 * PageLength + 0x10
  /** Page 11h, OpticalPowerTx1. */
  const TxPowerOffset: nat := 5 * PageLength + 0x1A
  /** Page 11h, OpticalPowerRx1. */
  const RxPowerOffset: nat := 5 * PageLength + 0x3A
  /** Page 25h, VDM real-time OSNR. */
  const OsnrOffset: nat := 7 * PageLength + 0x16

  /** The five fields the monitor reads. */
  datatype Field = Temperature | Voltage | TxPower | RxPower | Osnr

  function Offset(f: Field): nat {
    match f
    case Temperature => TempOffset
    case Voltage => VccOffset
    case TxPower => TxPowerOffset
    case RxPower => RxPowerOffset
    case Osnr => OsnrOffset
  }

  /** The shortest image every accessor can read: the end of the OSNR word. */
  const ImageLength: nat := OsnrOffset + 2

  predicate Covers(e: Image, off: nat) {
    off + 2 <= |e|
  }

  /** `uint16(e[off])<<8 | uint16(e[off+1])`: the unsigned big-endian word at `off`. */
  function Word(e: Image, off: nat): (w: uint16)
    requires Covers(e, off)
    ensures w / 256 == e[off] && w % 256 == e[off + 1]
  {
    e[off] as int * 256 + e[off + 1] as int
  }

  /** Reinterprets a 16-bit pattern as two's complement. */
  function Signed(w: uint16): (v: int16)
    ensures v % 65536 == w
    ensures v < 0 <==> w >= 32768
  {
    if w < 32768 then w else w - 65536
  }

  /**
    `int16(hi)<<8 | int16(lo)` with Go's wrap-around: the shift wraps to 16 bits
    and is read back as two's complement; its low byte is then zero, so the `|`
    with a byte adds the byte.
   */
  function TempMonValue(e: Image): (t: int16)
    requires Covers(e, TempOffset)
    ensures t == Signed(Word(e, TempOffset))
  {
    var shifted := Signed((e[14] as int * 256) % 65536);
    shifted + e[15] as int
  }

  /**
    `float64(tempMonValue) * 10 / 256` in degrees Celsius. The product and the
    division by a power of two are exact in double precision, so a real is exact.
   */
  function Celsius(e: Image): (c: real)
    requires Covers(e, TempOffset)
    ensures c * 256.0 == TempMonValue(e) as real * 10.0
    ensures -1280.0 <= c < 1280.0
  {
    TempMonValue(e) as real * 10.0 / 256.0
  }

  /** The raw value of any field, in its own signedness. */
  function Read(e: Image, f: Field): (v: int)
    requires Covers(e, Offset(f))
    ensures f.Temperature? ==> -32768 <= v < 32768 && v % 65536 == Word(e, Offset(f))
    ensures !f.Temperature? ==> v == Word(e, Offset(f))
  {
    if f.Temperature? then TempMonValue(e) else Word(e, Offset(f))
  }

  /**
    Every field lies inside `ImageLength` and the five two-byte windows are
    pairwise disjoint; a field depends on its own window and nothing else.
   */
  lemma {:induction false} FieldIsolation(e: Image, e': Image, f: Field)
    requires Covers(e, Offset(f)) && Covers(e', Offset(f))
    requires e[Offset(f)] == e'[Offset(f)] && e[Offset(f) + 1] == e'[Offset(f) + 1]
    ensures Read(e, f) == Read(e', f)
    ensures Offset(f) + 2 <= ImageLength
  {
    assert Word(e, Offset(f)) == Word(e', Offset(f));
  }

  lemma WindowsDisjoint(f: Field, g: Field)
    requires f != g
    ensures Offset(f) + 2 <= Offset(g) || Offset(g) + 2 <= Offset(f)
  {
  }

  /**
    The generator's writer, `byte(v>>8), byte(v&0xFF)`: stores the low 16 bits of
    `v` big-endian at `off`. An arithmetic shift is a floor division.
   */
  function PutWord(e: Image, off: nat, v: int): (e': Image)
    requires Covers(e, off)
    ensures |e'| == |e|
    ensures forall i :: 0 <= i < |e| && i != off && i != off + 1 ==> e'[i] == e[i]
  {
    e[off := (v / 256) % 256][off + 1 := v % 256]
  }

  /** Reading a field back after writing it gives the value written, for every field. */
  lemma {:induction false} ReadPutWord(e: Image, f: Field, v: int)
    requires Covers(e, Offset(f))
    requires if f.Temperature? then -32768 <= v < 32768 else 0 <= v < 65536
    ensures Read(PutWord(e, Offset(f), v), f) == v
  {
    var e' := PutWord(e, Offset(f), v);
    var off := Offset(f);
    assert e'[off] == (v / 256) % 256 && e'[off + 1] == v % 256;
    var w := Word(e', off);
    assert w == ((v / 256) % 256) * 256 + v % 256;
    assert w == v % 65536 by { WordOfBytes(v); }
  }

  lemma WordOfBytes(v: int)
    ensures ((v / 256) % 256) * 256 + v % 256 == v % 65536
  {
    var q := v / 256;
    var r := v % 256;
    assert v == 256 * q + r;
    var qq := q / 256;
    var qr := q % 256;
    assert q == 256 * qq + qr;
    assert v == 65536 * qq + (256 * qr + r);
    assert 0 <= 256 * qr + r < 65536;
  }

  /** Writing one field leaves every other field unchanged. */
  lemma {:induction false} PutWordIsolation(e: Image, f: Field, g: Field, v: int)
    requires f != g && Covers(e, Offset(f)) && Covers(e, Offset(g))
    ensures Read(PutWord(e, Offset(f), v), g) == Read(e, g)
  {
    WindowsDisjoint(f, g);
    FieldIsolation(e, PutWord(e, Offset(f), v), g);
  }

  /** The ASCII text "1234567890abcdef1234567890abff00": one bare 32-digit group. */
  const SampleDump: seq<uint8> := [0x31, 0x32, 0x33, 0x34, 0x35, 0x36, 0x37, 0x38, 0x39, 0x30, 0x61, 0x62, 0x63, 0x64, 0x65, 0x66, 0x31, 0x32, 0x33, 0x34, 0x35, 0x36, 0x37, 0x38, 0x39, 0x30, 0x61, 0x62, 0x66, 0x66, 0x30, 0x30]

  /**
    The repository's decoder test: the sample decodes without error to a
    16-byte image whose bytes 14 and 15 are FF 00, which reads as minus ten degrees.
   */
  lemma {:induction false} SampleTemperature()
    ensures Decoder.WellFramed(SampleDump)
    ensures Decoder.Decode(SampleDump).Ok?
    ensures var e := Decoder.Decode(SampleDump).value;
            |e| == 16 && Covers(e, TempOffset) && Celsius(e) == -10.0
  {
    SampleDecodes();
    SampleTempBytes();
    MinusTen(Decoder.Decode(SampleDump).value);
  }

  /** Bytes FF 00 at the temperature offset read as minus ten degrees. */
  lemma MinusTen(e: Image)
    requires Covers(e, TempOffset) && e[14] == 0xff && e[15] == 0x00
    ensures Celsius(e) == -10.0
  {
    assert Word(e, TempOffset) == 65280;
  }

  lemma SampleDecodes()
    ensures Decoder.WellFramed(SampleDump)
    ensures Decoder.Decode(SampleDump).Ok? && |Decoder.Decode(SampleDump).value| == 16
  {
    assert forall p :: 0 <= p < |SampleDump| ==> Hex.IsHexDigit(SampleDump[p]);
  }

  lemma SampleTempBytes()
    requires Decoder.WellFramed(SampleDump) && Decoder.Decode(SampleDump).Ok?
    requires |Decoder.Decode(SampleDump).value| == 16
    ensures Decoder.Decode(SampleDump).value[14] == 0xff
    ensures Decoder.Decode(SampleDump).value[15] == 0x00
  {
    SampleDigits();
    TempBytesOf(SampleDump);
  }

  lemma SampleDigits()
    ensures |SampleDump| == 32
    ensures SampleDump[28] == 0x66 && SampleDump[29] == 0x66 && SampleDump[30] == 0x30 && SampleDump[31] == 0x30
  {
  }

  /** The temperature bytes of a one-group dump come from its digits 28 to 31. */
  lemma TempBytesOf(input: seq<uint8>)
    requires Decoder.WellFramed(input) && Decoder.Decode(input).Ok? && |Decoder.Decode(input).value| == 16
    requires input[28] == 0x66 && input[29] == 0x66 && input[30] == 0x30 && input[31] == 0x30
    ensures Decoder.Decode(input).value[14] == 0xff
    ensures Decoder.Decode(input).value[15] == 0x00
  {
    var e := Decoder.Decode(input).value;
    assert Decoder.ByteSource(14) == 28 && Decoder.ByteSource(15) == 30;
    assert e[14] == 16 * Hex.DigitValue(input[28]) + Hex.DigitValue(input[29]);
    assert e[15] == 16 * Hex.DigitValue(input[30]) + Hex.DigitValue(input[31]);
  }
}

=== FILE: forms.dfy ===
/**
  Validation of the device form: `Form.Validate` of ems/templates/form.go and
  the older `validateFormInput` (frontend/cmds/server.go, frontend/handlers.go),
  the key-upload size check, the error prettifier and the sign-in login check.

  `net.ParseIP` is an oracle. The login regular expression is written out as a
  character-class predicate and matched by an explicit automaton.
 */
module Forms {
  import opened Bytes
  import opened Results

  predicate IsLetter(c: char) {
    'a' <= c <= 'z' || 'A' <= c <= 'Z'
  }

  predicate IsAlnum(c: char) {
    IsLetter(c) || '0' <= c <= '9'
  }

  /** The class `[\-a-zA-Z0-9_\.]`, also spelled `[-_.a-zA-Z0-9]`. */
  predicate IsLoginChar(c: char) {
    IsAlnum(c) || c == '-' || c == '_' || c == '.'
  }

  /**
    The language of `^[a-zA-Z][\-a-zA-Z0-9_\.]*[a-zA-Z0-9]$` (the ems form; the
    frontend's `LoginPattern` denotes the same language): a letter, any login
    characters, and a letter or digit at the end, so at least two characters.
   */
  predicate ValidLogin(s: string) {
    |s| >= 2 && IsLetter(s[0]) && IsAlnum(s[|s| - 1]) &&
    forall i :: 1 <= i < |s| - 1 ==> IsLoginChar(s[i])
  }

  /** States of an automaton for the login pattern. */
  datatype ScanState =
    | Start    // nothing read
    | Open     // a valid start that cannot end here
    | Closed   // a valid start ending in a letter or digit after the first character
    | Dead     // no continuation matches

  function Step(st: ScanState, c: char): ScanState {
    match st
    case Start => if IsLetter(c) then Open else Dead
    case Dead => Dead
    case _ => if IsAlnum(c) then Closed else if IsLoginChar(c) then Open else Dead
  }

  /** The first `i` characters could start a login. */
  predicate PrefixOk(s: string, i: nat)
    requires 1 <= i <= |s|
  {
    IsLetter(s[0]) && forall j :: 1 <= j < i ==> IsLoginChar(s[j])
  }

  /** The regular-expression match, one character at a time. */
  method MatchLogin(s: string) returns (ok: bool)
    ensures ok <==> ValidLogin(s)
  {
    var st := Start;
    var i := 0;
    while i < |s|
      invariant 0 <= i <= |s|
      invariant i == 0 <==> st == Start
      invariant i > 0 ==> (st == Dead <==> !PrefixOk(s, i))
      invariant i > 0 && PrefixOk(s, i) ==> (st == Closed <==> i >= 2 && IsAlnum(s[i - 1]))
    {
      st := Step(st, s[i]);
      i := i + 1;
    }
    ok := st == Closed;
  }

  /** What `net.ParseIP` says about an address: nothing, or whether `To4` and `To16` succeed. */
  datatype ParsedIp = Unparsed | Parsed(is4: bool, is16: bool)

  /** The largest key the form keeps, in bytes. */
  const MaxKeySize: nat := 20480

  datatype Form = Form(
    hostname: string,
    ip: string,
    ipType: int,
    login: string,
    password: Option<string>,
    key: seq<uint8>,              // a nil key is empty
    editId: nat,
    passwordClear: Option<string>,
    keyClear: Option<string>)

  /** The checks of the form, named after the error each one reports. */
  datatype FormError = WrongIpType | EmptyFields | WrongLogin | WrongIpAddress | WrongKeySize

  /** The error texts of the ems form and of frontend/cmds. */
  function Message(e: FormError): string {
    match e
    case WrongIpType => "wrong IP type provided"
    case EmptyFields => "empty fields"
    case WrongLogin => "wrong login"
    case WrongIpAddress => "wrong IP address"
    case WrongKeySize => "wrong key size"
  }

  /** The order in which the checks run. */
  function Rank(e: FormError): nat {
    match e
    case WrongIpType => 0
    case EmptyFields => 1
    case WrongLogin => 2
    case WrongIpAddress => 3
    case WrongKeySize => 4
  }

  predicate IpFits(p: ParsedIp, ipType: int) {
    p.Parsed? && !(!p.is4 && ipType == 4) && !(!p.is16 && ipType == 6)
  }

  /** The form passes check `e`. */
  predicate Passes(f: Form, parseIp: string -> ParsedIp, e: FormError) {
    match e
    case WrongIpType => f.ipType == 4 || f.ipType == 6
    case EmptyFields => f.hostname != "" && f.ip != "" && f.login != ""
    case WrongLogin => ValidLogin(f.login)
    case WrongIpAddress => IpFits(parseIp(f.ip), f.ipType)
    case WrongKeySize => |f.key| <= MaxKeySize
  }

  datatype FieldName =
    | HostnameField | IpField | IpTypeField | LoginField | PasswordField
    | KeyField | EditIdField | PasswordClearField | KeyClearField

  /** The fields in which two forms differ. */
  function Changed(f: Form, g: Form): set<FieldName> {
    (if f.hostname != g.hostname then {HostnameField} else {}) +
    (if f.ip != g.ip then {IpField} else {}) +
    (if f.ipType != g.ipType then {IpTypeField} else {}) +
    (if f.login != g.login then {LoginField} else {}) +
    (if f.password != g.password then {PasswordField} else {}) +
    (if f.key != g.key then {KeyField} else {}) +
    (if f.editId != g.editId then {EditIdField} else {}) +
    (if f.passwordClear != g.passwordClear then {PasswordClearField} else {}) +
    (if f.keyClear != g.keyClear then {KeyClearField} else {})
  }

  /** The field a failed check resets, if any. */
  function Resets(e: FormError): set<FieldName> {
    match e
    case WrongIpType => {IpTypeField}
    case EmptyFields => {}
    case WrongLogin => {LoginField}
    case WrongIpAddress => {IpField}
    case WrongKeySize => {KeyField}
  }

  datatype Validated = Validated(form: Form, err: Option<FormError>)

  /**
    `Form.Validate`: the checks run in order and the first that fails names the
    error; it resets at most the field it is about (the IP type to 4, the
    login, the address or the key to empty), and a form that passes comes back
    unchanged.
   */
  function Validate(f: Form, parseIp: string -> ParsedIp): (r: Validated)
    ensures r.err.None? <==> forall e :: Passes(f, parseIp, e)
    ensures r.err.Some? ==>
              !Passes(f, parseIp, r.err.value) &&
              forall e :: Rank(e) < Rank(r.err.value) ==> Passes(f, parseIp, e)
    ensures r.err.None? ==> r.form == f
    ensures r.err.Some? ==> Changed(f, r.form) <= Resets(r.err.value)
    ensures r.err == Some(WrongIpType) ==> r.form.ipType == 4
    ensures r.err == Some(WrongLogin) ==> r.form.login == ""
    ensures r.err == Some(WrongIpAddress) ==> r.form.ip == ""
    ensures r.err == Some(WrongKeySize) ==> r.form.key == []
  {
    if f.ipType != 4 && f.ipType != 6 then
      assert !Passes(f, parseIp, WrongIpType);
      Validated(f.(ipType := 4), Some(WrongIpType))
    else if f.hostname == "" || f.ip == "" || f.login == "" then
      assert !Passes(f, parseIp, EmptyFields);
      Validated(f, Some(EmptyFields))
    else if !ValidLogin(f.login) then
      assert !Passes(f, parseIp, WrongLogin);
      Validated(f.(login := ""), Some(WrongLogin))
    else if !IpFits(parseIp(f.ip), f.ipType) then
      assert !Passes(f, parseIp, WrongIpAddress);
      Validated(f.(ip := ""), Some(WrongIpAddress))
    else if |f.key| > MaxKeySize then
      assert !Passes(f, parseIp, WrongKeySize);
      Validated(f.(key := []), Some(WrongKeySize))
    else Validated(f, None)
  }

  /**
    Submitting a rejected form again: a cleared login or address now reads as
    an empty field and nothing more changes; a dropped key no longer stands in
    the way; an IP type is never rejected twice.
   */
  lemma Revalidate(f: Form, parseIp: string -> ParsedIp)
    requires Validate(f, parseIp).err.Some?
    ensures var r := Validate(f, parseIp);
            var r' := Validate(r.form, parseIp);
            (r.err.value == WrongLogin || r.err.value == WrongIpAddress || r.err.value == EmptyFields ==>
               r' == Validated(r.form, Some(EmptyFields))) &&
            (r.err.value == WrongKeySize ==> r' == Validated(r.form, None)) &&
            r'.err != Some(WrongIpType)
  {
  }

  /**
    The repository's test table: a valid form passes; IP type 3, empty fields,
    the login "l", the address "127.0.0.1.1abc" and a key of 20481 bytes are
    rejected with their own errors; a key of exactly 20480 bytes is kept.
   */
  lemma FormTestCases(parseIp: string -> ParsedIp, key: seq<uint8>)
    requires parseIp("127.0.0.1") == Parsed(true, true) && parseIp("127.0.0.1.1abc") == Unparsed
    ensures var valid := Form("hostname", "127.0.0.1", 4, "login", None, [], 0, None, None);
            Validate(valid, parseIp).err == None &&
            Validate(Form("", "", 3, "", None, [], 0, None, None), parseIp).err == Some(WrongIpType) &&
            Validate(valid.(hostname := "", ip := "", login := ""), parseIp).err == Some(EmptyFields) &&
            Validate(valid.(login := "l"), parseIp).err == Some(WrongLogin) &&
            Validate(valid.(ip := "127.0.0.1.1abc"), parseIp).err == Some(WrongIpAddress) &&
            (|key| == MaxKeySize + 1 ==> Validate(valid.(key := key), parseIp).err == Some(WrongKeySize)) &&
            (|key| == MaxKeySize ==> Validate(valid.(key := key), parseIp).err == None)
  {
    var login := "login";
    assert IsLetter(login[0]) && IsAlnum(login[4]);
    assert forall i :: 1 <= i < 4 ==> IsLoginChar(login[i]);
    assert ValidLogin(login);
  }

  // ---------------------------------------------------------------------------
  // frontend

  /** The four fields the older frontend validates in place. */
  datatype Fields = Fields(ipType: int, hostname: string, ip: string, login: string)

  datatype Checked = Checked(fields: Fields, err: Option<FormError>)

  /**
    `validateFormInput` of frontend/cmds/server.go (and `ValidateFormInput` of
    frontend/handlers.go, which differs only in its texts): the same order as
    the form minus the key check, a bad IP type resets all four fields, and an
    address passes whenever it parses, whatever the IP type.
   */
  function ValidateInput(x: Fields, parsesIp: string -> bool): (r: Checked)
    ensures r.err != Some(WrongKeySize)
    ensures r.err.None? <==>
              (x.ipType == 4 || x.ipType == 6) && x.hostname != "" && x.ip != "" && x.login != "" &&
              ValidLogin(x.login) && parsesIp(x.ip)
    ensures r.err.None? || r.err == Some(EmptyFields) ==> r.fields == x
    ensures r.err == Some(WrongIpType) <==> x.ipType != 4 && x.ipType != 6
    ensures r.err == Some(WrongIpType) ==> r.fields == Fields(4, "", "", "")
    ensures r.err == Some(WrongLogin) ==> !ValidLogin(x.login) && r.fields == x.(login := "")
    ensures r.err == Some(WrongIpAddress) ==> !parsesIp(x.ip) && r.fields == x.(ip := "")
  {
    if x.ipType != 4 && x.ipType != 6 then Checked(Fields(4, "", "", ""), Some(WrongIpType))
    else if x.hostname == "" || x.ip == "" || x.login == "" then Checked(x, Some(EmptyFields))
    else if !ValidLogin(x.login) then Checked(x.(login := ""), Some(WrongLogin))
    else if !parsesIp(x.ip) then Checked(x.(ip := ""), Some(WrongIpAddress))
    else Checked(x, None)
  }

  function FieldsOf(f: Form): Fields {
    Fields(f.ipType, f.hostname, f.ip, f.login)
  }

  /**
    The two generations agree on the first three checks; past them the older
    one only asks that the address parse, so every form the ems form accepts
    it accepts too, and it may accept an IPv6 address under type 4.
   */
  lemma ValidatorsAgree(f: Form, parseIp: string -> ParsedIp, parsesIp: string -> bool)
    requires forall s :: parsesIp(s) <==> parseIp(s).Parsed?
    ensures var r := Validate(f, parseIp);
            var r' := ValidateInput(FieldsOf(f), parsesIp);
            (r.err.Some? && Rank(r.err.value) <= 2 ==> r'.err == r.err) &&
            (r.err.None? ==> r'.err.None?) &&
            (r'.err.None? ==> r.err.None? || r.err == Some(WrongIpAddress) || r.err == Some(WrongKeySize))
  {
    assert parsesIp(f.ip) <==> parseIp(f.ip).Parsed?;
  }

  /** The texts of frontend/handlers.go. */
  function HandlersMessage(e: FormError): string {
    match e
    case WrongIpType => "Wrong IP type provided"
    case EmptyFields => "Empty fields, try again"
    case WrongLogin => "Wrong login, try again"
    case WrongIpAddress => "Wrong IP address, try again"
    case WrongKeySize => "Wrong key size, try again"
  }

  /** `strings.ToUpper` on one ASCII character. */
  function Upper(c: char): (u: char)
    ensures 'a' <= c <= 'z' ==> u as int == c as int - 32
    ensures !('a' <= c <= 'z') ==> u == c
  {
    if 'a' <= c <= 'z' then (c as int - 32) as char else c
  }

  /**
    `prettifyError`: the message with its first character upper-cased and
    ", try again" appended. Taking `[:1]` of an empty message panics.
   */
  function Prettify(m: string): (p: string)
    requires |m| > 0
    ensures |p| == |m| + 11
    ensures p[0] == Upper(m[0]) && p[1..|m|] == m[1..]
    ensures p[|m|..] == ", try again"
  {
    [Upper(m[0])] + m[1..] + ", try again"
  }

  /**
    The handlers' texts are the prettified cmds texts, except that the IP-type
    text lacks the ", try again" suffix.
   */
  lemma HandlersMessagesArePrettified(e: FormError)
    ensures e != WrongIpType ==> HandlersMessage(e) == Prettify(Message(e))
    ensures e == WrongIpType ==> HandlersMessage(e) + ", try again" == Prettify(Message(e))
  {
    match e
    case WrongIpType => PrettifiedIpType();
    case EmptyFields => PrettifiedEmptyFields();
    case WrongLogin => PrettifiedWrongLogin();
    case WrongIpAddress => PrettifiedWrongIpAddress();
    case WrongKeySize => PrettifiedWrongKeySize();
  }

  lemma PrettifiedIpType()
    ensures HandlersMessage(WrongIpType) + ", try again" == Prettify(Message(WrongIpType))
  {
    PrettifyAscii("wrong IP type provided", "Wrong IP type provided");
    assert "Wrong IP type provided" + ", try again" == "Wrong IP type provided, try again";
  }

  lemma PrettifiedEmptyFields()
    ensures HandlersMessage(EmptyFields) == Prettify(Message(EmptyFields))
  {
    PrettifyAscii("empty fields", "Empty fields");
    assert "Empty fields" + ", try again" == "Empty fields, try again";
  }

  lemma PrettifiedWrongLogin()
    ensures HandlersMessage(WrongLogin) == Prettify(Message(WrongLogin))
  {
    PrettifyAscii("wrong login", "Wrong login");
    assert "Wrong login" + ", try again" == "Wrong login, try again";
  }

  lemma PrettifiedWrongIpAddress()
    ensures HandlersMessage(WrongIpAddress) == Prettify(Message(WrongIpAddress))
  {
    PrettifyAscii("wrong IP address", "Wrong IP address");
    assert "Wrong IP address" + ", try again" == "Wrong IP address, try again";
  }

  lemma PrettifiedWrongKeySize()
    ensures HandlersMessage(WrongKeySize) == Prettify(Message(WrongKeySize))
  {
    PrettifyAscii("wrong key size", "Wrong key size");
    assert "Wrong key size" + ", try again" == "Wrong key size, try again";
  }

  lemma PrettifyAscii(m: string, capitalised: string)
    requires |m| == |capitalised| > 0 && 'a' <= m[0] <= 'z'
    requires capitalised[0] as int == m[0] as int - 32 && capitalised[1..] == m[1..]
    ensures Prettify(m) == capitalised + ", try again"
  {
    assert capitalised == [capitalised[0]] + capitalised[1..];
  }

  /** The address patterns the page offers. */
  datatype IpPattern = Ipv4Pattern | Ipv6Pattern

  /** `GetPattern`: version 6 selects the IPv6 pattern, anything else the IPv4 one. */
  function GetPattern(version: int): (p: IpPattern)
    ensures p == Ipv6Pattern <==> version == 6
  {
    if version == 6 then Ipv6Pattern else Ipv4Pattern
  }

  /**
    After validation the page shows the pattern of the type that was
    submitted, falling back to IPv4 along with the reset IP type.
   */
  lemma PatternAfterValidation(x: Fields, parsesIp: string -> bool)
    ensures GetPattern(ValidateInput(x, parsesIp).fields.ipType) ==
              if x.ipType == 6 then Ipv6Pattern else Ipv4Pattern
  {
  }

  /** What `r.FormFile("key")` yields: no file, a form error, or a file of a declared size whose copy may fail. */
  datatype Upload = NoFile | UploadFailed | File(size: int, contents: Option<seq<uint8>>)

  datatype KeyError = FormFileError | KeySizeError | CopyError

  /**
    `retrieveSSHKey`: no file is no key and no error; a declared size of zero
    or above 20480 bytes is rejected before reading; otherwise the copied bytes.
   */
  function RetrieveKey(u: Upload): (r: Result<Option<seq<uint8>>, KeyError>)
    ensures r == Ok(None) <==> u.NoFile?
    ensures r == Err(KeySizeError) <==> u.File? && (u.size == 0 || u.size > MaxKeySize)
    ensures r.Ok? && r.value.Some? ==> u.File? && u.size != 0 && u.size <= MaxKeySize && u.contents == r.value
    ensures u.UploadFailed? ==> r == Err(FormFileError)
    ensures u.File? && u.size != 0 && u.size <= MaxKeySize ==>
              r == if u.contents.Some? then Ok(u.contents) else Err(CopyError)
  {
    match u
    case NoFile => Ok(None)
    case UploadFailed => Err(FormFileError)
    case File(size, contents) =>
      if size > MaxKeySize as int || size == 0 then Err(KeySizeError)
      else if contents.None? then Err(CopyError)
      else Ok(contents)
  }

  /**
    A key the upload accepts, whose declared size is its length, also passes
    the ems form's size check; the form alone accepts an empty key.
   */
  lemma KeySizeBoundsAgree(u: Upload, f: Form, parseIp: string -> ParsedIp)
    requires u.File? && u.contents.Some? && u.size == |u.contents.value|
    requires RetrieveKey(u).Ok? && f.key == u.contents.value
    ensures Passes(f, parseIp, WrongKeySize) && |f.key| > 0
  {
  }

  /**
    `GetKey` of frontend/handlers.go: the same decisions as `retrieveSSHKey`,
    with its own texts; the size text is the prettified form text.
   */
  function GetKey(u: Upload): (r: (Option<seq<uint8>>, Option<string>))
    ensures r.1.None? <==> RetrieveKey(u).Ok?
    ensures r.1.None? ==> r.0 == RetrieveKey(u).value
    ensures r.1.Some? ==> r.0.None?
    ensures r.1 == Some(Prettify(Message(WrongKeySize))) <==> RetrieveKey(u) == Err(KeySizeError)
  {
    var msg := Prettify(Message(WrongKeySize));
    PrettifiedWrongKeySize();
    match RetrieveKey(u)
    case Ok(key) => (key, None)
    case Err(FormFileError) => (None, Some("Error with retriving file"))
    case Err(KeySizeError) => (None, Some(msg))
    case Err(CopyError) => (None, Some("Error with reading file"))
  }

  /** `^([-_.a-zA-Z0-9]){2,32}$`, the login check of the sign-in page. */
  predicate SignInLogin(s: string) {
    2 <= |s| <= 32 && forall i :: 0 <= i < |s| ==> IsLoginChar(s[i])
  }

  /** Every device login up to 32 characters could sign in; "-a" shows the converse fails. */
  lemma DeviceLoginSignsIn(s: string)
    requires ValidLogin(s) && |s| <= 32
    ensures SignInLogin(s)
    ensures SignInLogin("-a") && !ValidLogin("-a")
  {
    var t := "-a";
    assert t[0] == '-' && t[1] == 'a';
  }

  /** A Go map read: the zero value, "", for an absent key. */
  function Lookup(users: map<string, string>, login: string): string {
    if login in users then users[login] else ""
  }

  /** The sign-in predicate as written: the pattern and `Users[login] == password`. */
  predicate SignInAsWritten(users: map<string, string>, login: string, password: string) {
    SignInLogin(login) && Lookup(users, login) == password
  }

  /**
    An unconfigured login that fits the pattern signs in with an empty
    password, because the absent user reads as "".
   */
  lemma AbsentUserSignsIn(users: map<string, string>, login: string)
    requires SignInLogin(login) && login !in users
    ensures SignInAsWritten(users, login, "")
  {
  }

  /** The evidently intended predicate: only configured users, with their own password. */
  predicate SignInAccepted(users: map<string, string>, login: string, password: string) {
    SignInLogin(login) && login in users && users[login] == password
  }

  /**
    The corrected predicate accepts exactly what the written one accepts for
    configured users and nothing for anyone else.
   */
  lemma SignInOnlyConfiguredUsers(users: map<string, string>, login: string, password: string)
    ensures SignInAccepted(users, login, password) <==> login in users && SignInAsWritten(users, login, password)
    ensures login !in users ==> !SignInAccepted(users, login, password)
  {
  }
}

=== FILE: hex.dfy ===
/**
  Base16 decoding as performed by Go's `encoding/hex.DecodeString`, on which
  every generation of the EEPROM decoder relies (RFC 4648 section 8: each byte
  is two hexadecimal digits, most significant first; both letter cases are
  accepted on input).
 */
module Hex {
  import opened Bytes
  import opened Results

  /** The two errors `DecodeString` can report. */
  datatype HexError =
    | InvalidByte(b: uint8)  // the first byte that is not a hex digit
    | ErrLength              // every byte is a digit but their number is odd

  predicate IsHexDigit(c: uint8) {
    ('0' as int <= c <= '9' as int) || ('a' as int <= c <= 'f' as int) || ('A' as int <= c <= 'F' as int)
  }

  function DigitValue(c: uint8): (v: nat)
    requires IsHexDigit(c)
    ensures v < 16
  {
    if c <= '9' as int then c - '0' as int
    else if c <= 'F' as int then c - 'A' as int + 10
    else c - 'a' as int + 10
  }

  predicate AllHex(text: seq<uint8>) {
    forall i :: 0 <= i < |text| ==> IsHexDigit(text[i])
  }

  /**
    Decodes pairs from the front. The Go loop checks the first byte of a pair
    before the second and reports the odd-length error only after every byte
    has passed the digit check, so the error names the leftmost bad byte.
   */
  function DecodeString(text: seq<uint8>): (r: Result<seq<uint8>, HexError>)
    ensures r.Ok? <==> |text| % 2 == 0 && AllHex(text)
    ensures r.Ok? ==> |r.value| == |text| / 2
    ensures r.Ok? ==> forall j :: 0 <= j < |r.value| ==>
              r.value[j] == 16 * DigitValue(text[2 * j]) + DigitValue(text[2 * j + 1])
    ensures r.Err? && r.error.InvalidByte? ==>
              exists i :: 0 <= i < |text| && text[i] == r.error.b && !IsHexDigit(text[i]) && AllHex(text[..i])
    ensures r.Err? && r.error.ErrLength? ==> AllHex(text) && |text| % 2 == 1
    decreases |text|
  {
    if |text| == 0 then Ok([])
    else if !IsHexDigit(text[0]) then
      assert AllHex(text[..0]);
      Err(InvalidByte(text[0]))
    else if |text| == 1 then Err(ErrLength)
    else if !IsHexDigit(text[1]) then
      assert AllHex(text[..1]);
      Err(InvalidByte(text[1]))
    else
      AllHexPair(text);
      match DecodeString(text[2..])
      case Ok(rest) =>
        PairsShift(text, rest);
        Ok([16 * DigitValue(text[0]) + DigitValue(text[1])] + rest)
      case Err(e) =>
        if e.InvalidByte? then
          BadByteShift(text, e.b);
          Err(e)
        else
          Err(e)
  }

  /** A text of at least two bytes is all digits iff its first pair and the rest are. */
  lemma AllHexPair(text: seq<uint8>)
    requires |text| >= 2
    ensures AllHex(text) <==> IsHexDigit(text[0]) && IsHexDigit(text[1]) && AllHex(text[2..])
  {
    assert forall i :: 2 <= i < |text| ==> text[i] == text[2..][i - 2];
  }

  /** Prepending the value of the first pair to the decoding of the rest decodes the whole. */
  lemma PairsShift(text: seq<uint8>, rest: seq<uint8>)
    requires |text| >= 2 && IsHexDigit(text[0]) && IsHexDigit(text[1]) && AllHex(text[2..])
    requires |rest| == |text[2..]| / 2
    requires forall j :: 0 <= j < |rest| ==> rest[j] == 16 * DigitValue(text[2..][2 * j]) + DigitValue(text[2..][2 * j + 1])
    ensures var r := [16 * DigitValue(text[0]) + DigitValue(text[1])] + rest;
            AllHex(text) && |r| == |text| / 2 &&
            forall j :: 0 <= j < |r| ==> r[j] == 16 * DigitValue(text[2 * j]) + DigitValue(text[2 * j + 1])
  {
    AllHexPair(text);
    var r := [16 * DigitValue(text[0]) + DigitValue(text[1])] + rest;
    forall j | 0 <= j < |r|
      ensures r[j] == 16 * DigitValue(text[2 * j]) + DigitValue(text[2 * j + 1])
    {
      if j > 0 {
        assert r[j] == rest[j - 1];
        assert text[2..][2 * (j - 1)] == text[2 * j] && text[2..][2 * (j - 1) + 1] == text[2 * j + 1];
      }
    }
  }

  /** The leftmost bad byte of the rest is the leftmost bad byte of the whole. */
  lemma BadByteShift(text: seq<uint8>, b: uint8)
    requires |text| >= 2 && IsHexDigit(text[0]) && IsHexDigit(text[1])
    requires exists i :: 0 <= i < |text[2..]| && text[2..][i] == b && !IsHexDigit(text[2..][i]) && AllHex(text[2..][..i])
    ensures exists i :: 0 <= i < |text| && text[i] == b && !IsHexDigit(text[i]) && AllHex(text[..i])
  {
    var i :| 0 <= i < |text[2..]| && text[2..][i] == b && !IsHexDigit(text[2..][i]) && AllHex(text[2..][..i]);
    assert forall k :: 2 <= k < 2 + i ==> text[k] == text[2..][..i][k - 2];
    assert text[2 + i] == b && AllHex(text[..2 + i]);
  }

  /** The lower-case digit for a value below 16, as Go's `hex.EncodeToString` writes it. */
  function Digit(v: nat): (c: uint8)
    requires v < 16
    ensures IsHexDigit(c) && DigitValue(c) == v
  {
    if v < 10 then '0' as int + v else 'a' as int + (v - 10)
  }

  /** Base16 encoding, two lower-case digits per byte. */
  function Encode(data: seq<uint8>): (text: seq<uint8>)
    ensures |text| == 2 * |data|
    ensures AllHex(text)
  {
    if |data| == 0 then []
    else
      var rest := Encode(data[1..]);
      assert forall i :: 0 <= i < |rest| ==> IsHexDigit(rest[i]);
      [Digit(data[0] / 16), Digit(data[0] % 16)] + rest
  }

  /** Byte j of the data becomes digits 2j and 2j+1 of the text, high half first. */
  lemma {:induction false} EncodeAt(data: seq<uint8>)
    ensures forall j :: 0 <= j < |data| ==>
              Encode(data)[2 * j] == Digit(data[j] / 16) && Encode(data)[2 * j + 1] == Digit(data[j] % 16)
  {
    if |data| > 0 {
      EncodeAt(data[1..]);
      EncodeCons(data);
      EncodeShift(data, Encode(data[1..]), Encode(data));
    }
  }

  lemma EncodeShift(data: seq<uint8>, rest: seq<uint8>, text: seq<uint8>)
    requires |data| > 0 && |rest| == 2 * (|data| - 1)
    requires forall j :: 0 <= j < |data| - 1 ==>
               rest[2 * j] == Digit(data[1..][j] / 16) && rest[2 * j + 1] == Digit(data[1..][j] % 16)
    requires text == [Digit(data[0] / 16), Digit(data[0] % 16)] + rest
    ensures forall j :: 0 <= j < |data| ==> text[2 * j] == Digit(data[j] / 16) && text[2 * j + 1] == Digit(data[j] % 16)
  {
    forall j | 1 <= j < |data|
      ensures text[2 * j] == Digit(data[j] / 16) && text[2 * j + 1] == Digit(data[j] % 16)
    {
      assert text[2 * j] == rest[2 * (j - 1)] && text[2 * j + 1] == rest[2 * (j - 1) + 1];
      assert data[1..][j - 1] == data[j];
    }
  }

  lemma EncodeCons(data: seq<uint8>)
    requires |data| > 0
    ensures Encode(data) == [Digit(data[0] / 16), Digit(data[0] % 16)] + Encode(data[1..])
  {
  }

  /** Decoding undoes encoding: each decoded byte is rebuilt from its own two digits. */
  lemma DecodeEncode(data: seq<uint8>)
    ensures DecodeString(Encode(data)) == Ok(data)
  {
    var text := Encode(data);
    EncodeAt(data);
    EvenDouble(|data|);
    assert |text| % 2 == 0 && AllHex(text);
    var r := DecodeString(text);
    forall j | 0 <= j < |data|
      ensures r.value[j] == data[j]
    {
      assert r.value[j] == 16 * DigitValue(text[2 * j]) + DigitValue(text[2 * j + 1]);
      assert text[2 * j] == Digit(data[j] / 16) && text[2 * j + 1] == Digit(data[j] % 16);
      DigitPair(data[j]);
    }
    assert r.value == data;
  }

  lemma EvenDouble(n: nat)
    ensures (2 * n) % 2 == 0 && (2 * n) / 2 == n
  {
  }

  /** The two digits of a byte give the byte back. */
  lemma DigitPair(b: uint8)
    ensures 16 * DigitValue(Digit(b / 16)) + DigitValue(Digit(b % 16)) == b
  {
  }
}

=== FILE: legacy.dfy ===
/**
  The older generations of the polling engine.

  ems/cmds polls until a wall-clock limit, inserts every measurement as soon
  as it has it, and reconnects after its sixth failed pass. backend/cmds and
  backend/ poll the interface listing minus its last piece, keep a raw dump
  that does not decode, and write status codes into the device while choosing
  the key. The wall clock and the transport are oracles: a run is the finite
  sequence of passes that fit before the limit.
 */
module Legacy {
  import opened Bytes
  import opened Results
  import Decoder
  import Eeprom
  import opened Storage
  import opened Remote
  import Monitor

  // ---------------------------------------------------------------------------
  // ems/cmds

  datatype CmdsPassResult = CmdsPassResult(inserts: seq<Monitor.Insert>, failed: bool)

  /**
    `monitorInterfaces` of ems/cmds: an interface that answers is inserted at
    once, whatever happens to the others; the joined error is non-nil when any
    interface failed.
   */
  function CmdsPass(hostname: string, interfaces: seq<string>, answer: string -> Reply<seq<uint8>>): (r: CmdsPassResult)
    requires AnswersProcessable(interfaces, answer)
    ensures |r.inserts| <= |interfaces|
    ensures r.failed <==> exists i :: 0 <= i < |interfaces| && Query(interfaces[i], answer).Err?
  {
    CmdsCollect(hostname, interfaces, QueryAll(interfaces, answer))
  }

  /** The ems/cmds loop once every query has its outcome. */
  function CmdsCollect(hostname: string, interfaces: seq<string>, rs: seq<Result<Measurement, Reason>>): (r: CmdsPassResult)
    requires |rs| == |interfaces|
    ensures |r.inserts| <= |interfaces|
    ensures r.failed <==> exists i :: 0 <= i < |rs| && rs[i].Err?
  {
    if |interfaces| == 0 then CmdsPassResult([], false)
    else
      var rest := CmdsCollect(hostname, interfaces[1..], rs[1..]);
      assert forall i :: 1 <= i < |rs| ==> rs[i] == rs[1..][i - 1];
      match rs[0]
      case Ok(m) => CmdsPassResult([Monitor.Insert(hostname, interfaces[0], m)] + rest.inserts, rest.failed)
      case Err(_) => CmdsPassResult(rest.inserts, true)
  }

  /**
    The inline inserts are the measurements of the batch the current engine
    collects, and the error is non-nil exactly when that batch has failures.
   */
  lemma CmdsPassIsBatch(hostname: string, interfaces: seq<string>, answer: string -> Reply<seq<uint8>>)
    requires AnswersProcessable(interfaces, answer)
    ensures var b := MonitorInterfaces(interfaces, answer);
            CmdsPass(hostname, interfaces, answer) ==
              CmdsPassResult(Monitor.InsertsOf(hostname, b.measurements), b.failures != [])
  {
    CmdsCollectIsBatch(hostname, interfaces, QueryAll(interfaces, answer));
  }

  lemma {:induction false} CmdsCollectIsBatch(hostname: string, interfaces: seq<string>, rs: seq<Result<Measurement, Reason>>)
    requires |rs| == |interfaces|
    ensures var b := Collect(interfaces, rs);
            CmdsCollect(hostname, interfaces, rs) ==
              CmdsPassResult(Monitor.InsertsOf(hostname, b.measurements), b.failures != [])
  {
    if |interfaces| > 0 {
      var inf := interfaces[0];
      CmdsCollectIsBatch(hostname, interfaces[1..], rs[1..]);
      var rest := Collect(interfaces[1..], rs[1..]);
      match rs[0]
      case Ok(m) =>
        assert Monitor.InsertsOf(hostname, [Tagged(inf, m)] + rest.measurements) ==
               [Monitor.Insert(hostname, inf, m)] + Monitor.InsertsOf(hostname, rest.measurements);
      case Err(_) =>
    }
  }

  /**
    Partial emission: every interface that answers is inserted, even in a pass
    where other interfaces fail (the current engine inserts nothing then).
   */
  lemma CmdsPartialEmission(hostname: string, interfaces: seq<string>, answer: string -> Reply<seq<uint8>>, i: nat)
    requires AnswersProcessable(interfaces, answer)
    requires i < |interfaces| && Query(interfaces[i], answer).Ok?
    ensures Monitor.Insert(hostname, interfaces[i], Query(interfaces[i], answer).value) in CmdsPass(hostname, interfaces, answer).inserts
  {
    CmdsCollectEmits(hostname, interfaces, QueryAll(interfaces, answer), i);
  }

  lemma {:induction false} CmdsCollectEmits(hostname: string, interfaces: seq<string>, rs: seq<Result<Measurement, Reason>>, i: nat)
    requires |rs| == |interfaces| && i < |rs| && rs[i].Ok?
    ensures Monitor.Insert(hostname, interfaces[i], rs[i].value) in CmdsCollect(hostname, interfaces, rs).inserts
  {
    var r := CmdsCollect(hostname, interfaces, rs);
    var rest := CmdsCollect(hostname, interfaces[1..], rs[1..]);
    if i == 0 {
      assert r.inserts == [Monitor.Insert(hostname, interfaces[0], rs[0].value)] + rest.inserts;
    } else {
      assert interfaces[i] == interfaces[1..][i - 1] && rs[i] == rs[1..][i - 1];
      CmdsCollectEmits(hostname, interfaces[1..], rs[1..], i - 1);
      if rs[0].Ok? {
        assert r.inserts == [Monitor.Insert(hostname, interfaces[0], rs[0].value)] + rest.inserts;
      } else {
        assert r.inserts == rest.inserts;
      }
    }
  }

  /** What one (re)connection of ems/cmds `Monitor` meets after the key is chosen. */
  datatype Connection = Connection(
    dialOk: bool,    // `ssh.Dial` succeeds
    listed: bool,    // `show-fiber-interfaces` succeeds
    closeOk: bool)   // `client.Close` succeeds when the error limit is exceeded

  /** The number of failed passes in a run. */
  function Failures(passes: seq<bool>): nat {
    if |passes| == 0 then 0 else (if passes[0] then 1 else 0) + Failures(passes[1..])
  }

  /**
    ems/cmds `Monitor` from the `CLIENT_CREATION` label, connection number
    `attempt`. `passes` are the passes that start before the time limit, true
    where `monitorInterfaces` returned an error.
   */
  function CmdsMonitor(d: Device, parses: seq<uint8> -> bool, connect: nat -> Connection, attempt: nat, passes: seq<bool>): (status: int8)
    ensures status == StatusOK || status == StatusWarning || status == StatusErrorSSH || status == StatusErrorKeyfile
    ensures status == StatusErrorKeyfile <==> Auth(d, parses).Err?
    ensures Auth(d, parses).Ok? && !(connect(attempt).dialOk && connect(attempt).listed) ==> status == StatusErrorSSH
    decreases |passes|, 1
  {
    if Auth(d, parses).Err? then StatusErrorKeyfile
    else if !connect(attempt).dialOk || !connect(attempt).listed then StatusErrorSSH
    else CmdsPolls(d, parses, connect, attempt, passes, 0)
  }

  /** The polling loop of one connection, `failedRuns` failures into it. */
  function CmdsPolls(d: Device, parses: seq<uint8> -> bool, connect: nat -> Connection, attempt: nat, passes: seq<bool>, failedRuns: nat): (status: int8)
    requires Auth(d, parses).Ok?
    ensures status == StatusOK || status == StatusWarning || status == StatusErrorSSH
    decreases |passes|, 0
  {
    if |passes| == 0 then (if failedRuns != 0 then StatusWarning else StatusOK)
    else
      var failed := failedRuns + (if passes[0] then 1 else 0);
      if failed > FailedRunsLimit then
        if connect(attempt).closeOk then CmdsMonitor(d, parses, connect, attempt + 1, passes[1..])
        else StatusErrorSSH
      else CmdsPolls(d, parses, connect, attempt, passes[1..], failed)
  }

  /**
    Up to five failures the connection is kept to the end of the run, which
    reports a warning if any pass failed and OK otherwise.
   */
  lemma {:induction false} CmdsFinalStatus(d: Device, parses: seq<uint8> -> bool, connect: nat -> Connection, attempt: nat, passes: seq<bool>, failedRuns: nat)
    requires Auth(d, parses).Ok?
    requires failedRuns + Failures(passes) <= FailedRunsLimit
    ensures CmdsPolls(d, parses, connect, attempt, passes, failedRuns) ==
              if failedRuns + Failures(passes) == 0 then StatusOK else StatusWarning
  {
    if |passes| > 0 {
      CmdsFinalStatus(d, parses, connect, attempt, passes[1..], failedRuns + (if passes[0] then 1 else 0));
    }
  }

  /**
    The reconnection fires on the sixth failure and not before: pass `i` is the
    failure that brings the count to six, and the run goes on from the next
    pass with a fresh connection and a fresh count, unless closing fails.
   */
  lemma {:induction false} CmdsReconnectOnSixth(d: Device, parses: seq<uint8> -> bool, connect: nat -> Connection, attempt: nat, passes: seq<bool>, failedRuns: nat)
    returns (i: nat)
    requires Auth(d, parses).Ok?
    requires failedRuns + Failures(passes) > FailedRunsLimit
    requires failedRuns <= FailedRunsLimit
    ensures i < |passes| && passes[i]
    ensures failedRuns + Failures(passes[..i]) == FailedRunsLimit
    ensures CmdsPolls(d, parses, connect, attempt, passes, failedRuns) ==
              if connect(attempt).closeOk then CmdsMonitor(d, parses, connect, attempt + 1, passes[i + 1..])
              else StatusErrorSSH
  {
    var failed := failedRuns + (if passes[0] then 1 else 0);
    if failed > FailedRunsLimit {
      i := 0;
      assert passes[..0] == [];
    } else {
      var j := CmdsReconnectOnSixth(d, parses, connect, attempt, passes[1..], failed);
      i := j + 1;
      assert passes[..i] == [passes[0]] + passes[1..][..j];
      assert passes[1..][j + 1..] == passes[i + 1..];
    }
  }

  // ---------------------------------------------------------------------------
  // backend/cmds and backend/

  /** The device record of utils/device.go and common/database.go; a nil key is `None`. */
  datatype LegacyDevice = LegacyDevice(
    id: int,
    hostname: string,
    ip: string,
    login: string,
    password: string,
    key: Option<seq<uint8>>,
    connected: string,
    status: int)

  /** The dump format both backends are built with. */
  const EepromDecoderType: uint8 := 0

  /**
    `decodeEeprom`: format 0 is the separated hex dump of the current decoder;
    a dump that does not decode, and any other format, is kept raw.
   */
  function DecodeEeprom(input: seq<uint8>, decoder: uint8): (out: seq<uint8>)
    requires decoder == 0 ==> Decoder.WellFramed(input)
    ensures decoder != 0 ==> out == input
    ensures decoder == 0 ==>
              out == (if Decoder.Decode(input).Ok? then Decoder.Decode(input).value else input)
  {
    if decoder == 0 then
      match Decoder.Decode(input)
      case Ok(e) => e
      case Err(_) => input
    else input
  }

  /** A decoded dump is strictly shorter than the dump itself. */
  lemma DecodedShorter(input: seq<uint8>)
    requires Decoder.WellFramed(input) && |input| > 0 && Decoder.Decode(input).Ok?
    ensures |Decoder.Decode(input).value| < |input|
  {
    var n := |input|;
    var g := Decoder.Groups(input);
    assert 33 * g <= n + 32;
    assert n >= 32;
  }

  /**
    `UnifyEeprom` of backend/ssh.go, built with decoder 0: the dump comes back
    unchanged exactly when it does not decode (or is empty), and otherwise it
    is the decoded image.
   */
  function UnifyEeprom(input: seq<uint8>): (out: seq<uint8>)
    requires Decoder.WellFramed(input)
    ensures out == input <==> Decoder.Decode(input).Err? || |input| == 0
    ensures Decoder.Decode(input).Ok? ==> out == Decoder.Decode(input).value
  {
    var out := DecodeEeprom(input, EepromDecoderType);
    assert Decoder.Decode(input).Ok? && |input| > 0 ==> |out| < |input| by {
      if Decoder.Decode(input).Ok? && |input| > 0 {
        DecodedShorter(input);
      }
    }
    out
  }

  /** A framed image unifies back to the image, as in the current decoder. */
  lemma UnifyFrame(image: seq<uint8>, separators: seq<uint8>)
    requires |image| == 16 * |separators|
    ensures Decoder.WellFramed(Decoder.Frame(image, separators))
    ensures UnifyEeprom(Decoder.Frame(image, separators)) == image
  {
    Decoder.FrameRoundTrip(image, separators);
  }

  /**
    `ProcessData` of backend/cmds/ssh.go and backend/ssh.go: no error is
    possible; the five fields are read from the unified dump, which must reach
    the OSNR word. On a dump that decodes this agrees with `processData` of the
    current engine; on one that does not, the raw text is read as an image.
   */
  function BackendProcessData(input: seq<uint8>): (m: Measurement)
    requires Decoder.WellFramed(input) && |UnifyEeprom(input)| >= Eeprom.ImageLength
    ensures Decoder.Decode(input).Ok? ==> Processable(input) && Remote.ProcessData(input) == Ok(m)
    ensures Decoder.Decode(input).Err? ==> m == MeasurementOf(input)
  {
    MeasurementOf(UnifyEeprom(input))
  }

  /**
    `auth` of backend/cmds/ssh.go: a nil key, or one that does not parse, falls
    back to the password. The receiver is a copy, so the `Status = 2` it writes
    is lost and the caller's device is not a result.
   */
  function ValueReceiverAuth(d: LegacyDevice, parses: seq<uint8> -> bool): (m: AuthMethod)
    ensures m.Password? <==> d.key.None? || !parses(d.key.value)
    ensures m.Password? ==> m.secret == d.password
    ensures m.PublicKey? ==> d.key == Some(m.key)
  {
    match d.key
    case None => Password(d.password)
    case Some(k) => if parses(k) then PublicKey(k) else Password(d.password)
  }

  /**
    Against the current engine's `auth`: a parsing key gives the same method,
    and a key that does not parse falls back to the password where the current
    engine reports a key error.
   */
  lemma AuthGenerations(d: Device, ld: LegacyDevice, parses: seq<uint8> -> bool)
    requires |d.keyfile| > 0 && ld.key == Some(d.keyfile) && ld.password == d.password
    ensures parses(d.keyfile) ==> Auth(d, parses) == Ok(ValueReceiverAuth(ld, parses))
    ensures !parses(d.keyfile) ==> Auth(d, parses).Err? && ValueReceiverAuth(ld, parses) == Password(d.password)
  {
  }

  datatype PollEnd = PollEnd(reconnect: bool, sessionErrors: nat, inserted: seq<string>)

  /** A reply `ProcessData` can handle without a panic: a framed dump that unifies to a full image. */
  predicate BackendReplyProcessable(reply: Reply<seq<uint8>>) {
    reply.Output? ==> Decoder.WellFramed(reply.out) && |UnifyEeprom(reply.out)| >= Eeprom.ImageLength
  }

  /** Every dump returned for a polled interface can be processed. */
  predicate BackendAnswersProcessable(polled: seq<string>, answer: string -> Reply<seq<uint8>>) {
    forall inf :: inf in polled ==> BackendReplyProcessable(answer(EepromCommand(inf)))
  }

  /** Every inserted interface answered with a dump, which `BackendProcessData` then reads. */
  predicate AllAnswered(inserted: seq<string>, answer: string -> Reply<seq<uint8>>) {
    forall k :: 0 <= k < |inserted| ==> answer(EepromCommand(inserted[k])).Output?
  }

  lemma PolledTail(polled: seq<string>, answer: string -> Reply<seq<uint8>>)
    requires |polled| > 0 && BackendAnswersProcessable(polled, answer)
    ensures BackendAnswersProcessable(polled[1..], answer)
    ensures [polled[0]] + polled[1..] == polled
  {
    assert forall inf :: inf in polled[1..] ==> inf in polled;
  }

  lemma AnsweredCons(inf: string, rest: seq<string>, answer: string -> Reply<seq<uint8>>)
    requires answer(EepromCommand(inf)).Output? && AllAnswered(rest, answer)
    ensures AllAnswered([inf] + rest, answer)
  {
    forall k | 0 <= k < |[inf] + rest|
      ensures answer(EepromCommand(([inf] + rest)[k])).Output?
    {
      if k > 0 {
        assert ([inf] + rest)[k] == rest[k - 1];
      }
    }
  }

  /** The interfaces among `polled` whose sessions cannot be opened. */
  function SessionFailures(polled: seq<string>, answer: string -> Reply<seq<uint8>>): nat {
    if |polled| == 0 then 0
    else (if answer(EepromCommand(polled[0])).NoSession? then 1 else 0) + SessionFailures(polled[1..], answer)
  }

  /**
    `monitor` of backend/cmds/ssh.go over the interfaces it polls: a session
    that cannot be opened asks for a reconnection once more than two session
    errors have been counted and is counted otherwise; a failed command skips
    the interface; an answer is inserted. The counter is never reset here.
   */
  function SessionCounterPoll(polled: seq<string>, answer: string -> Reply<seq<uint8>>, sessionErrors: nat): (r: PollEnd)
    requires BackendAnswersProcessable(polled, answer)
    ensures sessionErrors <= r.sessionErrors
    ensures Subsequence(r.inserted, polled)
    ensures AllAnswered(r.inserted, answer)
  {
    if |polled| == 0 then PollEnd(false, sessionErrors, [])
    else
      PolledTail(polled, answer);
      match answer(EepromCommand(polled[0]))
      case NoSession =>
        if sessionErrors > 2 then PollEnd(true, sessionErrors, [])
        else
          var rest := SessionCounterPoll(polled[1..], answer, sessionErrors + 1);
          SubsequenceExtend(rest.inserted, polled[1..], polled[0]);
          assert [polled[0]] + polled[1..] == polled;
          rest
      case CommandFailed =>
        var rest := SessionCounterPoll(polled[1..], answer, sessionErrors);
        SubsequenceExtend(rest.inserted, polled[1..], polled[0]);
        assert [polled[0]] + polled[1..] == polled;
        rest
      case Output(_) =>
        var rest := SessionCounterPoll(polled[1..], answer, sessionErrors);
        AnsweredCons(polled[0], rest.inserted, answer);
        PollEnd(rest.reconnect, rest.sessionErrors, [polled[0]] + rest.inserted)
  }

  /**
    The counter in closed form: with F session failures among the polled
    interfaces and c counted before, `monitor` reconnects exactly when F >= 1
    and c + F > 3; otherwise each failure adds exactly one, and a reconnection
    leaves the counter at the larger of c and 3.
   */
  lemma {:induction false} SessionCounterClosedForm(polled: seq<string>, answer: string -> Reply<seq<uint8>>, sessionErrors: nat)
    requires BackendAnswersProcessable(polled, answer)
    ensures var r := SessionCounterPoll(polled, answer, sessionErrors);
            var f := SessionFailures(polled, answer);
            (r.reconnect <==> f >= 1 && sessionErrors + f > 3) &&
            (!r.reconnect ==> r.sessionErrors == sessionErrors + f) &&
            (r.reconnect ==> r.sessionErrors == if sessionErrors > 3 then sessionErrors else 3)
  {
    if |polled| > 0 {
      PolledTail(polled, answer);
      match answer(EepromCommand(polled[0]))
      case NoSession =>
        if sessionErrors <= 2 {
          SessionCounterClosedForm(polled[1..], answer, sessionErrors + 1);
        }
      case CommandFailed =>
        SessionCounterClosedForm(polled[1..], answer, sessionErrors);
      case Output(_) =>
        SessionCounterClosedForm(polled[1..], answer, sessionErrors);
    }
  }

  /** The interfaces among `polled` that are answered with a dump, in order. */
  function AnsweredOf(polled: seq<string>, answer: string -> Reply<seq<uint8>>): seq<string> {
    if |polled| == 0 then []
    else (if answer(EepromCommand(polled[0])).Output? then [polled[0]] else []) + AnsweredOf(polled[1..], answer)
  }

  /**
    On a client that stays open, a pass that ends without a reconnection
    inserts exactly the interfaces answered with a dump, in order; with no
    session failures it always ends that way.
   */
  lemma {:induction false} OpenClientInsertsAnswered(polled: seq<string>, answer: string -> Reply<seq<uint8>>, sessionErrors: nat)
    requires BackendAnswersProcessable(polled, answer)
    ensures var r := SessionCounterPoll(polled, answer, sessionErrors);
            (!r.reconnect ==> r.inserted == AnsweredOf(polled, answer)) &&
            (SessionFailures(polled, answer) == 0 ==> !r.reconnect)
  {
    SessionCounterClosedForm(polled, answer, sessionErrors);
    UnbrokenPollInsertsAnswered(polled, answer, sessionErrors);
  }

  lemma {:induction false} UnbrokenPollInsertsAnswered(polled: seq<string>, answer: string -> Reply<seq<uint8>>, sessionErrors: nat)
    requires BackendAnswersProcessable(polled, answer)
    ensures var r := SessionCounterPoll(polled, answer, sessionErrors);
            !r.reconnect ==> r.inserted == AnsweredOf(polled, answer)
  {
    if |polled| > 0 {
      PolledTail(polled, answer);
      var reply := answer(EepromCommand(polled[0]));
      var c := if reply.NoSession? then sessionErrors + 1 else sessionErrors;
      if !(reply.NoSession? && sessionErrors > 2) {
        UnbrokenPollInsertsAnswered(polled[1..], answer, c);
        var rest := SessionCounterPoll(polled[1..], answer, c);
        var r := SessionCounterPoll(polled, answer, sessionErrors);
        assert r.reconnect == rest.reconnect;
        assert r.inserted == (if reply.Output? then [polled[0]] else []) + rest.inserted;
      }
    }
  }

  /** A client already closed: no session can be opened on it. */
  function ClosedClient(command: string): Reply<seq<uint8>> {
    NoSession
  }

  lemma {:induction false} ClosedClientFails(polled: seq<string>)
    ensures SessionFailures(polled, ClosedClient) == |polled|
  {
    if |polled| > 0 {
      ClosedClientFails(polled[1..]);
    }
  }

  /**
    `MonitorData` of backend/cmds/ssh.go closes the client right after the
    listing and polls on it: every session fails, nothing is ever inserted,
    and the pass reconnects exactly when the counter passes three, after
    which the same closed-client pass starts over with the counter at zero.
   */
  lemma ClosedClientNeverInserts(listing: string, sessionErrors: nat)
    ensures BackendAnswersProcessable(Interfaces(listing), ClosedClient)
    ensures var n := |Interfaces(listing)|;
            var r := BackendPass(listing, ClosedClient, sessionErrors);
            r.inserted == [] && (r.reconnect <==> n >= 1 && sessionErrors + n > 3)
  {
    var polled := Interfaces(listing);
    var r := BackendPass(listing, ClosedClient, sessionErrors);
    ClosedClientFails(polled);
    SessionCounterClosedForm(polled, ClosedClient, sessionErrors);
  }

  /**
    One call of `monitor` on a listing: the loop bound `len(interfaces)-1`
    polls the listing without its last piece, which is exactly the interface
    list of the current engine.
   */
  function BackendPass(listing: string, answer: string -> Reply<seq<uint8>>, sessionErrors: nat): (r: PollEnd)
    requires BackendAnswersProcessable(Interfaces(listing), answer)
    ensures Subsequence(r.inserted, Interfaces(listing))
    ensures |Split(listing)| == |Interfaces(listing)| + 1
  {
    SessionCounterPoll(Interfaces(listing), answer, sessionErrors)
  }

  /**
    The poll loop of backend/ssh.go `MonitorData`: its `sessionError` flag is
    never set, so the first session that cannot be opened sends it back to
    `CLIENT_CREATION`; failed commands skip the interface.
   */
  function FirstErrorPoll(polled: seq<string>, answer: string -> Reply<seq<uint8>>): (r: PollEnd)
    requires BackendAnswersProcessable(polled, answer)
    ensures r.reconnect <==> SessionFailures(polled, answer) > 0
    ensures Subsequence(r.inserted, polled)
    ensures AllAnswered(r.inserted, answer)
  {
    if |polled| == 0 then PollEnd(false, 0, [])
    else
      PolledTail(polled, answer);
      var rest := FirstErrorPoll(polled[1..], answer);
      match answer(EepromCommand(polled[0]))
      case NoSession => PollEnd(true, 0, [])
      case CommandFailed =>
        SubsequenceExtend(rest.inserted, polled[1..], polled[0]);
        rest
      case Output(_) =>
        AnsweredCons(polled[0], rest.inserted, answer);
        PollEnd(rest.reconnect, 0, [polled[0]] + rest.inserted)
  }

  /**
    The dead flag makes backend/ behave like backend/cmds with its counter
    already past the threshold: the same reconnection and the same inserts.
   */
  lemma {:induction false} FirstErrorIsExhaustedCounter(polled: seq<string>, answer: string -> Reply<seq<uint8>>, sessionErrors: nat)
    requires BackendAnswersProcessable(polled, answer) && sessionErrors > 2
    ensures var r := FirstErrorPoll(polled, answer);
            var s := SessionCounterPoll(polled, answer, sessionErrors);
            r.reconnect == s.reconnect && r.inserted == s.inserted && s.sessionErrors == sessionErrors
  {
    if |polled| > 0 {
      PolledTail(polled, answer);
      FirstErrorIsExhaustedCounter(polled[1..], answer, sessionErrors);
    }
  }

  /**
    The key and status selection of `CreateSshClient` in backend/ssh.go: the
    password is used when the key does not parse, is nil, or was marked bad
    (status 2); a non-nil key that fails to parse marks the device with
    status 2, and key authentication marks it with status 10.
   */
  function CreateSshAuth(d: LegacyDevice, parses: seq<uint8> -> bool): (r: (AuthMethod, LegacyDevice))
    ensures r.0.Password? <==> d.key.None? || !parses(d.key.value) || d.status == 2
    ensures r.0.Password? ==> r.0.secret == d.password
    ensures r.0.PublicKey? ==> d.key == Some(r.0.key) && r.1.status == 10
    ensures d.key.Some? && !parses(d.key.value) ==> r.1.status == 2
    ensures r.1.(status := d.status) == d
    ensures r.1.status != d.status ==> r.1.status == 2 || r.1.status == 10
  {
    var parsed := d.key.Some? && parses(d.key.value);
    if !parsed || d.key.None? || d.status == 2 then
      var d' := if !parsed && d.key.Some? then d.(status := 2) else d;
      (Password(d.password), d')
    else
      (PublicKey(d.key.value), d.(status := 10))
  }

  /** `n` successive client creations for the same device. */
  function CreateRepeatedly(d: LegacyDevice, parses: seq<uint8> -> bool, n: nat): LegacyDevice
    decreases n
  {
    if n == 0 then d else CreateRepeatedly(CreateSshAuth(d, parses).1, parses, n - 1)
  }

  /**
    Status 2 is sticky: once a device is marked, every later client creation
    keeps the mark and uses the password, never the key.
   */
  lemma {:induction false} KeyfileMarkSticky(d: LegacyDevice, parses: seq<uint8> -> bool, n: nat)
    requires d.status == 2
    ensures CreateRepeatedly(d, parses, n).status == 2
    ensures CreateSshAuth(CreateRepeatedly(d, parses, n), parses).0 == Password(d.password)
  {
    if n > 0 {
      KeyfileMarkSticky(CreateSshAuth(d, parses).1, parses, n - 1);
    }
  }
}

=== FILE: monitor.dfy ===
/**
  The monitoring engine of ems/monitor/monitor.go: per device, authenticate,
  dial, list the interfaces and poll them until one pass is free of errors or
  five passes have failed; then write the status back. A cycle does this for
  every device fetched from the database, and `Run` repeats cycles until
  cancelled. Workers run devices concurrently in the source; each device's
  outcome depends only on its own link, so the model folds over the list.
 */
module Monitor {
  import opened Bytes
  import opened Results
  import opened Storage
  import opened Remote
  import opened Seqs

  /** Everything the network does for one device during one cycle. */
  datatype Link = Link(
    dialOk: bool,                               // `ssh.Dial` succeeds
    listing: Reply<string>,                     // `show-fiber-interfaces`
    answer: (nat, string) -> Reply<seq<uint8>>) // reply to a command in pass p

  /** The replies seen during pass `p`. */
  function PassAnswer(link: Link, p: nat): string -> Reply<seq<uint8>> {
    cmd => link.answer(p, cmd)
  }

  /** Every reply the device can see in the five passes can be processed without a panic. */
  predicate LinkProcessable(link: Link) {
    link.listing.Output? ==>
      forall p :: 0 <= p < FailedRunsLimit ==> AnswersProcessable(Interfaces(link.listing.out), PassAnswer(link, p))
  }

  lemma ListedPassesProcessable(link: Link)
    requires LinkProcessable(link) && link.listing.Output?
    ensures PassesProcessable(link, Interfaces(link.listing.out))
  {
  }

  /** One `InsertMeasurements` call. */
  datatype Insert = Insert(hostname: string, iface: string, measurement: Measurement)

  function InsertsOf(hostname: string, ms: seq<Tagged>): (ins: seq<Insert>)
    ensures |ins| == |ms|
    ensures forall i :: 0 <= i < |ms| ==> ins[i] == Insert(hostname, ms[i].iface, ms[i].measurement)
  {
    if |ms| == 0 then [] else [Insert(hostname, ms[0].iface, ms[0].measurement)] + InsertsOf(hostname, ms[1..])
  }

  predicate PassesProcessable(link: Link, interfaces: seq<string>) {
    forall p :: 0 <= p < FailedRunsLimit ==> AnswersProcessable(interfaces, PassAnswer(link, p))
  }

  /**
    The batch each of the five passes collects, pass p at index p. The replies
    are fixed in advance, so a pass the loop never reaches has no effect; it is
    listed only so that the loop can be stated over the sequence.
   */
  function PassBatches(link: Link, interfaces: seq<string>): (batches: seq<Batch>)
    requires PassesProcessable(link, interfaces)
    ensures |batches| == FailedRunsLimit
    ensures forall p :: 0 <= p < FailedRunsLimit ==> batches[p] == MonitorInterfaces(interfaces, PassAnswer(link, p))
  {
    seq(FailedRunsLimit, p requires 0 <= p < FailedRunsLimit => MonitorInterfaces(interfaces, PassAnswer(link, p)))
  }

  /** Pass `p` joined no error. */
  predicate CleanPass(batches: seq<Batch>, p: nat)
    requires p < |batches|
  {
    batches[p].failures == []
  }

  /** The retry loop from `failedRuns` on: the passes used and the inserts of the last one. */
  function Retry(hostname: string, batches: seq<Batch>, failedRuns: nat): (r: (nat, seq<Insert>))
    requires |batches| == FailedRunsLimit && failedRuns <= FailedRunsLimit
    ensures failedRuns <= r.0 <= FailedRunsLimit
    ensures r.0 == FailedRunsLimit ==> r.1 == []
    decreases FailedRunsLimit - failedRuns
  {
    if failedRuns == FailedRunsLimit then (FailedRunsLimit, [])
    else if !CleanPass(batches, failedRuns) then Retry(hostname, batches, failedRuns + 1)
    else (failedRuns, InsertsOf(hostname, batches[failedRuns].measurements))
  }

  /**
    The loop stops at the first clean pass at or after `failedRuns` and inserts
    that pass's measurements; when every remaining pass fails it ends at five
    with nothing inserted.
   */
  lemma {:induction false} RetryFirstClean(hostname: string, batches: seq<Batch>, failedRuns: nat)
    requires |batches| == FailedRunsLimit && failedRuns <= FailedRunsLimit
    ensures var r := Retry(hostname, batches, failedRuns);
            (forall p :: failedRuns <= p < r.0 ==> !CleanPass(batches, p)) &&
            (r.0 < FailedRunsLimit ==>
               CleanPass(batches, r.0) && r.1 == InsertsOf(hostname, batches[r.0].measurements)) &&
            (r.0 == FailedRunsLimit ==> r.1 == [])
    decreases FailedRunsLimit - failedRuns
  {
    if failedRuns < FailedRunsLimit && !CleanPass(batches, failedRuns) {
      RetryFirstClean(hostname, batches, failedRuns + 1);
    }
  }

  datatype Outcome = Outcome(status: int8, failedRuns: nat, inserts: seq<Insert>)

  /**
    `monitorDevice`: a key that does not parse is reported before any dial; a
    dial or listing failure is an SSH error; otherwise the status says how many
    passes failed before a clean one (none: OK, one to four: Warning, five:
    SSH error), and only the clean pass is inserted.
   */
  function MonitorDevice(d: Device, parses: seq<uint8> -> bool, link: Link): (o: Outcome)
    requires LinkProcessable(link)
    ensures Auth(d, parses).Err? ==> o == Outcome(StatusErrorKeyfile, 0, [])
    ensures Auth(d, parses).Ok? && (!link.dialOk || !link.listing.Output?) ==> o == Outcome(StatusErrorSSH, 0, [])
    ensures o.failedRuns <= FailedRunsLimit
    ensures o.status == StatusOK <==> Auth(d, parses).Ok? && link.dialOk && link.listing.Output? && o.failedRuns == 0
    ensures o.status == StatusWarning <==> 1 <= o.failedRuns < FailedRunsLimit
    ensures o.failedRuns == FailedRunsLimit ==> o.status == StatusErrorSSH && o.inserts == []
  {
    match Auth(d, parses)
    case Err(_) => Outcome(StatusErrorKeyfile, 0, [])
    case Ok(_) =>
      if !link.dialOk then Outcome(StatusErrorSSH, 0, [])
      else match GetInterfaces(link.listing)
        case Err(_) => Outcome(StatusErrorSSH, 0, [])
        case Ok(interfaces) =>
          ListedPassesProcessable(link);
          var (failedRuns, inserts) := Retry(d.hostname, PassBatches(link, interfaces), 0);
          Outcome(RunsStatus(failedRuns), failedRuns, inserts)
  }

  /** The status written after `failedRuns` failed passes of a reached device. */
  function RunsStatus(failedRuns: nat): (status: int8)
    requires failedRuns <= FailedRunsLimit
    ensures status == StatusOK <==> failedRuns == 0
    ensures status == StatusWarning <==> 1 <= failedRuns < FailedRunsLimit
    ensures status == StatusErrorSSH <==> failedRuns == FailedRunsLimit
  {
    if failedRuns == 0 then StatusOK
    else if failedRuns == FailedRunsLimit then StatusErrorSSH
    else StatusWarning
  }

  /**
    All or nothing: when the device was reached and its interfaces listed, the
    passes before the reported one failed, and the inserts are exactly one per
    interface of the clean pass, in order, or none when all five failed.
   */
  lemma MonitorDeviceInserts(d: Device, parses: seq<uint8> -> bool, link: Link)
    requires LinkProcessable(link)
    requires Auth(d, parses).Ok? && link.dialOk && link.listing.Output?
    ensures var o := MonitorDevice(d, parses, link);
            var interfaces := Interfaces(link.listing.out);
            (forall p :: 0 <= p < o.failedRuns ==> MonitorInterfaces(interfaces, PassAnswer(link, p)).failures != []) &&
            (o.failedRuns < FailedRunsLimit ==>
               MonitorInterfaces(interfaces, PassAnswer(link, o.failedRuns)).failures == [] &&
               |o.inserts| == |interfaces| &&
               forall i :: 0 <= i < |interfaces| ==>
                 o.inserts[i].hostname == d.hostname && o.inserts[i].iface == interfaces[i])
  {
    var interfaces := Interfaces(link.listing.out);
    ListedPassesProcessable(link);
    var batches := PassBatches(link, interfaces);
    var r := Retry(d.hostname, batches, 0);
    RetryFirstClean(d.hostname, batches, 0);
    OutcomeOfRetry(d, parses, link);
    forall p | 0 <= p < r.0
      ensures MonitorInterfaces(interfaces, PassAnswer(link, p)).failures != []
    {
      assert !CleanPass(batches, p);
    }
    if r.0 < FailedRunsLimit {
      CleanInserts(d.hostname, interfaces, PassAnswer(link, r.0));
    }
  }

  lemma OutcomeOfRetry(d: Device, parses: seq<uint8> -> bool, link: Link)
    requires LinkProcessable(link)
    requires Auth(d, parses).Ok? && link.dialOk && link.listing.Output?
    ensures PassesProcessable(link, Interfaces(link.listing.out))
    ensures var r := Retry(d.hostname, PassBatches(link, Interfaces(link.listing.out)), 0);
            MonitorDevice(d, parses, link) == Outcome(RunsStatus(r.0), r.0, r.1)
  {
    ListedPassesProcessable(link);
  }

  /** The inserts of a clean pass name every interface once, in order. */
  lemma CleanInserts(hostname: string, interfaces: seq<string>, answer: string -> Reply<seq<uint8>>)
    requires AnswersProcessable(interfaces, answer) && MonitorInterfaces(interfaces, answer).failures == []
    ensures var ins := InsertsOf(hostname, MonitorInterfaces(interfaces, answer).measurements);
            |ins| == |interfaces| &&
            forall i :: 0 <= i < |interfaces| ==> ins[i].hostname == hostname && ins[i].iface == interfaces[i]
  {
    var b := MonitorInterfaces(interfaces, answer);
    var ins := InsertsOf(hostname, b.measurements);
    CleanCollect(interfaces, QueryAll(interfaces, answer));
    forall i | 0 <= i < |interfaces|
      ensures ins[i].hostname == hostname && ins[i].iface == interfaces[i]
    {
      assert ins[i] == Insert(hostname, b.measurements[i].iface, b.measurements[i].measurement);
    }
  }

  /** A device that lists no interfaces ends OK at the first pass and inserts nothing. */
  lemma NoInterfacesIsOK(d: Device, parses: seq<uint8> -> bool, link: Link)
    requires LinkProcessable(link)
    requires Auth(d, parses).Ok? && link.dialOk && link.listing.Output?
    requires Interfaces(link.listing.out) == []
    ensures MonitorDevice(d, parses, link) == Outcome(StatusOK, 0, [])
  {
    assert MonitorInterfaces([], PassAnswer(link, 0)) == Batch([], []);
  }

  /** `updateStatus`: the new status is stored and the connection time refreshed only on OK. */
  function UpdateStatus(d: Device, status: int8, now: Instant): (d': Device)
    ensures d'.lastStatus == status
    ensures d'.connected == (if status == StatusOK then now else d.connected)
    ensures d'.(lastStatus := d.lastStatus, connected := d.connected) == d
  {
    var d1 := d.(lastStatus := status);
    if d1.lastStatus == StatusOK then d1.(connected := now) else d1
  }

  /** One wake-up of `Run` after its sleep. */
  datatype Tick = Tick(
    cancelled: bool,                   // the context is done
    fetched: Option<seq<Device>>,      // `db.Devices`; None when it fails
    now: Instant)                      // `time.Now` during this cycle

  ghost predicate LinksProcessable(links: (nat, Device) -> Link) {
    forall c: nat, d: Device :: LinkProcessable(links(c, d))
  }

  /** What one cycle writes: every fetched device once, with its monitored status, and the inserts it sends. */
  datatype CycleLog = CycleLog(writes: seq<Device>, inserts: seq<Insert>)

  /**
    The outcome of monitoring each device. Devices are independent and their
    links fixed, so the outcomes can be taken before the results are written.
   */
  function Outcomes(devices: seq<Device>, parses: seq<uint8> -> bool, links: Device -> Link): (os: seq<Outcome>)
    requires forall d :: d in devices ==> LinkProcessable(links(d))
    ensures |os| == |devices|
    ensures forall i :: 0 <= i < |devices| ==> os[i] == MonitorDevice(devices[i], parses, links(devices[i]))
  {
    seq(|devices|, i requires 0 <= i < |devices| && devices[i] in devices => MonitorDevice(devices[i], parses, links(devices[i])))
  }

  /** The inserts of each outcome, outcome by outcome. */
  function OutcomeInserts(os: seq<Outcome>): (parts: seq<seq<Insert>>)
    ensures |parts| == |os| && forall i :: 0 <= i < |os| ==> parts[i] == os[i].inserts
  {
    seq(|os|, i requires 0 <= i < |os| => os[i].inserts)
  }

  /** The inserts each device's monitoring sends, device by device. */
  function DeviceInserts(devices: seq<Device>, parses: seq<uint8> -> bool, links: Device -> Link): (parts: seq<seq<Insert>>)
    requires forall d :: d in devices ==> LinkProcessable(links(d))
    ensures |parts| == |devices|
    ensures forall i :: 0 <= i < |devices| ==> parts[i] == MonitorDevice(devices[i], parses, links(devices[i])).inserts
  {
    OutcomeInserts(Outcomes(devices, parses, links))
  }

  /** The body of a worker, over known outcomes: write each status back and send each device's inserts. */
  function Writeback(devices: seq<Device>, os: seq<Outcome>, now: Instant): (log: CycleLog)
    requires |os| == |devices|
    ensures |log.writes| == |devices|
    ensures forall i :: 0 <= i < |devices| ==> log.writes[i] == UpdateStatus(devices[i], os[i].status, now)
    ensures log.inserts == Concat(OutcomeInserts(os))
  {
    if |devices| == 0 then CycleLog([], [])
    else
      var rest := Writeback(devices[1..], os[1..], now);
      OutcomeInsertsShift(os);
      CycleLog([UpdateStatus(devices[0], os[0].status, now)] + rest.writes, os[0].inserts + rest.inserts)
  }

  lemma OutcomeInsertsShift(os: seq<Outcome>)
    requires |os| > 0
    ensures OutcomeInserts(os)[1..] == OutcomeInserts(os[1..])
  {
  }

  /**
    One monitoring cycle over the fetched devices: each device gets its status
    written back, and the sink receives every device's inserts, device after
    device.
   */
  function RunCycle(devices: seq<Device>, parses: seq<uint8> -> bool, links: Device -> Link, now: Instant): (log: CycleLog)
    requires forall d :: d in devices ==> LinkProcessable(links(d))
    ensures |log.writes| == |devices|
    ensures forall i :: 0 <= i < |devices| ==>
              log.writes[i] == UpdateStatus(devices[i], MonitorDevice(devices[i], parses, links(devices[i])).status, now)
    ensures log.inserts == Concat(DeviceInserts(devices, parses, links))
  {
    Writeback(devices, Outcomes(devices, parses, links), now)
  }

  function CycleLinks(links: (nat, Device) -> Link, c: nat): Device -> Link {
    d => links(c, d)
  }

  /** How many devices wake-up `t` fetched. */
  function FetchedAt(t: Tick): nat {
    if t.fetched.Some? then |t.fetched.value| else 0
  }

  /** The cycle run at wake-up `t` as cycle number `c`; nothing happens when the fetch failed. */
  function CycleAt(t: Tick, parses: seq<uint8> -> bool, links: (nat, Device) -> Link, c: nat): (cycle: CycleLog)
    requires LinksProcessable(links)
    ensures |cycle.writes| == FetchedAt(t)
  {
    match t.fetched
    case None => CycleLog([], [])
    case Some(devices) => RunCycle(devices, parses, CycleLinks(links, c), t.now)
  }

  /**
    The cycle each wake-up would run, numbered from `c`. The fetches and links
    are fixed, so the cycles after a cancellation are never observed.
   */
  function CyclesOf(ticks: seq<Tick>, parses: seq<uint8> -> bool, links: (nat, Device) -> Link, c: nat): (cs: seq<CycleLog>)
    requires LinksProcessable(links)
    ensures |cs| == |ticks|
    ensures forall i :: 0 <= i < |ticks| ==> cs[i] == CycleAt(ticks[i], parses, links, c + i)
  {
    seq(|ticks|, i requires 0 <= i < |ticks| => CycleAt(ticks[i], parses, links, c + i))
  }

  /** Everything the cycles write, cycle after cycle. */
  function CycleWrites(cs: seq<CycleLog>): seq<Device> {
    if |cs| == 0 then [] else cs[0].writes + CycleWrites(cs[1..])
  }

  /** Everything the cycles send to the sink, cycle after cycle. */
  function CycleInserts(cs: seq<CycleLog>): seq<Insert> {
    if |cs| == 0 then [] else cs[0].inserts + CycleInserts(cs[1..])
  }

  datatype RunLog = RunLog(cycles: nat, writes: seq<Device>, inserts: seq<Insert>)

  /** The loop of `Run` over the cycles each wake-up would run. */
  function RunOver(ticks: seq<Tick>, cs: seq<CycleLog>): (log: RunLog)
    requires |cs| == |ticks|
    requires forall i :: 0 <= i < |ticks| ==> |cs[i].writes| == FetchedAt(ticks[i])
    ensures log.cycles <= |ticks|
    ensures forall i :: 0 <= i < log.cycles ==> !ticks[i].cancelled
    ensures log.cycles < |ticks| ==> ticks[log.cycles].cancelled
    ensures log.writes == CycleWrites(cs[..log.cycles])
    ensures log.inserts == CycleInserts(cs[..log.cycles])
    ensures |log.writes| == Fetched(ticks[..log.cycles])
    decreases |ticks|
  {
    if |ticks| == 0 || ticks[0].cancelled then RunLog(0, [], [])
    else
      var rest := RunOver(ticks[1..], cs[1..]);
      PrefixCons(ticks, rest.cycles);
      PrefixCons(cs, rest.cycles);
      ConsParts(ticks[0], ticks[1..][..rest.cycles]);
      ConsParts(cs[0], cs[1..][..rest.cycles]);
      RunLog(rest.cycles + 1, cs[0].writes + rest.writes, cs[0].inserts + rest.inserts)
  }

  /**
    `Run` over a finite schedule of wake-ups, from cycle number `c` on: it stops
    at the first cancelled wake-up, skips a cycle whose fetch failed, and
    otherwise runs a cycle over the fetched devices. The writes and inserts are
    those of the cycles run, in order.
   */
  function Run(ticks: seq<Tick>, parses: seq<uint8> -> bool, links: (nat, Device) -> Link, c: nat): (log: RunLog)
    requires LinksProcessable(links)
    ensures log.cycles <= |ticks|
    ensures forall i :: 0 <= i < log.cycles ==> !ticks[i].cancelled
    ensures log.cycles < |ticks| ==> ticks[log.cycles].cancelled
    ensures log.writes == CycleWrites(CyclesOf(ticks, parses, links, c)[..log.cycles])
    ensures log.inserts == CycleInserts(CyclesOf(ticks, parses, links, c)[..log.cycles])
    ensures |log.writes| == Fetched(ticks[..log.cycles])
  {
    RunOver(ticks, CyclesOf(ticks, parses, links, c))
  }

  /** How many devices the given wake-ups fetched. */
  function Fetched(ticks: seq<Tick>): nat {
    if |ticks| == 0 then 0 else FetchedAt(ticks[0]) + Fetched(ticks[1..])
  }
}

=== FILE: remote.dfy ===
/**
  One device as seen over SSH (ems/monitor/remote_device.go): choosing the
  authentication method, listing the fiber interfaces, and polling every
  interface once. The SSH transport is an oracle: each command either fails to
  get a session, fails to run, or returns its combined output.
 */
module Remote {
  import opened Bytes
  import opened Results
  import Hex
  import opened Seqs
  import Decoder
  import Eeprom
  import Storage

  const CmdShowFiberInterfaces: string := "show-fiber-interfaces"
  const CmdShowEepromPrefix: string := "show-eeprom "
  /** How many failed passes `monitorDevice` tolerates. */
  const FailedRunsLimit: nat := 5

  /** What the transport does with one command. */
  datatype Reply<T> =
    | NoSession            // `client.NewSession` failed
    | CommandFailed        // `session.CombinedOutput` failed
    | Output(out: T)       // the command's combined output

  datatype AuthMethod = Password(secret: string) | PublicKey(key: seq<uint8>)

  /** Why a step failed; SSH and parser errors are opaque. */
  datatype Reason = SessionError | CommandError | KeyError | DecodeError(e: Hex.HexError)

  /**
    An empty keyfile selects the stored password; otherwise the key must parse,
    and a key that does not is an error with no fallback to the password.
    `parses` stands for `ssh.ParsePrivateKey` succeeding.
   */
  function Auth(d: Storage.Device, parses: seq<uint8> -> bool): (r: Result<AuthMethod, Reason>)
    ensures r.Ok? ==> (r.value.Password? <==> |d.keyfile| == 0)
    ensures r.Ok? && r.value.Password? ==> r.value.secret == d.password
    ensures r.Ok? && r.value.PublicKey? ==> r.value.key == d.keyfile
    ensures r.Err? <==> |d.keyfile| > 0 && !parses(d.keyfile)
    ensures r.Err? ==> r.error == KeyError
  {
    if |d.keyfile| == 0 then Ok(Password(d.password))
    else if parses(d.keyfile) then Ok(PublicKey(d.keyfile))
    else Err(KeyError)
  }

  function NewlineCount(s: string): nat {
    if |s| == 0 then 0 else (if s[0] == '\n' then 1 else 0) + NewlineCount(s[1..])
  }

  /** Pieces separated by newlines; the inverse of `Split`. */
  function JoinLines(parts: seq<string>): string {
    if |parts| == 0 then ""
    else if |parts| == 1 then parts[0]
    else parts[0] + "\n" + JoinLines(parts[1..])
  }

  /** Pieces each followed by a newline. */
  function Terminated(parts: seq<string>): string {
    if |parts| == 0 then "" else parts[0] + "\n" + Terminated(parts[1..])
  }

  predicate NoNewline(s: string) {
    forall i :: 0 <= i < |s| ==> s[i] != '\n'
  }

  /**
    `strings.Split(s, "\n")`: one more piece than there are newlines (so the
    empty text is one empty piece), no piece holds a newline, and joining the
    pieces with newlines gives the text back.
   */
  function Split(s: string): (parts: seq<string>)
    ensures |parts| == NewlineCount(s) + 1
    ensures forall i :: 0 <= i < |parts| ==> NoNewline(parts[i])
    ensures JoinLines(parts) == s
  {
    if |s| == 0 then [""]
    else
      var rest := Split(s[1..]);
      if s[0] == '\n' then
        JoinAfterNewline(s, rest);
        [""] + rest
      else
        JoinIntoFirst(s, rest);
        [[s[0]] + rest[0]] + rest[1..]
  }

  lemma JoinAfterNewline(s: string, rest: seq<string>)
    requires |s| > 0 && s[0] == '\n' && |rest| > 0 && JoinLines(rest) == s[1..]
    ensures JoinLines([""] + rest) == s
  {
    assert ([""] + rest)[1..] == rest;
    assert s == "\n" + s[1..];
  }

  lemma JoinIntoFirst(s: string, rest: seq<string>)
    requires |s| > 0 && |rest| > 0 && JoinLines(rest) == s[1..]
    ensures JoinLines([[s[0]] + rest[0]] + rest[1..]) == s
  {
    var first := [s[0]] + rest[0];
    assert s == [s[0]] + s[1..];
    if |rest| > 1 {
      JoinLinesCons(first, rest[1..]);
      JoinLinesCons(rest[0], rest[1..]);
      ConsParts(rest[0], rest[1..]);
      assert [rest[0]] + rest[1..] == rest;
      AppendAssoc([s[0]], rest[0], "\n" + JoinLines(rest[1..]));
      AppendAssoc(first, "\n", JoinLines(rest[1..]));
      AppendAssoc(rest[0], "\n", JoinLines(rest[1..]));
    }
  }

  lemma JoinLinesCons(x: string, xs: seq<string>)
    requires |xs| > 0
    ensures JoinLines([x] + xs) == x + "\n" + JoinLines(xs)
  {
    ConsParts(x, xs);
  }

  /** `getInterfaces` on a successful listing: the split with its last piece dropped. */
  function Interfaces(listing: string): (infs: seq<string>)
    ensures |infs| == NewlineCount(listing)
    ensures forall i :: 0 <= i < |infs| ==> NoNewline(infs[i])
  {
    var parts := Split(listing);
    parts[..|parts| - 1]
  }

  /** Joining with newlines is writing every piece but the last with its terminator. */
  lemma {:induction false} JoinLinesTerminated(parts: seq<string>)
    requires |parts| > 0
    ensures JoinLines(parts) == Terminated(parts[..|parts| - 1]) + parts[|parts| - 1]
  {
    if |parts| > 1 {
      JoinLinesTerminated(parts[1..]);
      assert parts[1..][..|parts| - 2] == parts[..|parts| - 1][1..];
    }
  }

  /**
    The interfaces, each written back with its newline, followed by the text
    after the last newline, give the listing back: nothing but the final
    unterminated line is lost.
   */
  lemma {:induction false} InterfacesRestore(listing: string)
    ensures var parts := Split(listing);
            Terminated(Interfaces(listing)) + parts[|parts| - 1] == listing
    ensures NoNewline(Split(listing)[|Split(listing)| - 1])
  {
    JoinLinesTerminated(Split(listing));
  }

  /** The dropped piece is empty exactly when the listing is empty or ends in a newline. */
  lemma {:induction false} LastPieceEmpty(s: string)
    ensures var parts := Split(s);
            parts[|parts| - 1] == "" <==> |s| == 0 || s[|s| - 1] == '\n'
  {
    if |s| > 0 {
      LastPieceEmpty(s[1..]);
      var rest := Split(s[1..]);
      if |s| > 1 {
        assert s[1..][|s| - 2] == s[|s| - 1];
      }
    }
  }

  /** A listing that ends in a newline (or is empty) is reproduced exactly. */
  lemma TerminatedListingRestored(listing: string)
    requires |listing| == 0 || listing[|listing| - 1] == '\n'
    ensures Terminated(Interfaces(listing)) == listing
  {
    InterfacesRestore(listing);
    LastPieceEmpty(listing);
    var parts := Split(listing);
    assert Terminated(Interfaces(listing)) + "" == Terminated(Interfaces(listing));
  }

  /** `getInterfaces`: a session or command failure is an error and gives no list. */
  function GetInterfaces(listing: Reply<string>): (r: Result<seq<string>, Reason>)
    ensures r.Ok? <==> listing.Output?
    ensures r.Ok? ==> r.value == Interfaces(listing.out)
    ensures listing.NoSession? ==> r == Err(SessionError)
    ensures listing.CommandFailed? ==> r == Err(CommandError)
  {
    match listing
    case NoSession => Err(SessionError)
    case CommandFailed => Err(CommandError)
    case Output(out) => Ok(Interfaces(out))
  }

  /** `fmt.Sprintf("show-eeprom %s", inf)`. */
  function EepromCommand(inf: string): (cmd: string)
    ensures |cmd| == |CmdShowEepromPrefix| + |inf|
    ensures CmdShowEepromPrefix <= cmd && cmd[|CmdShowEepromPrefix|..] == inf
  {
    CmdShowEepromPrefix + inf
  }

  /** Different interfaces are queried with different commands. */
  lemma EepromCommandInjective(a: string, b: string)
    requires EepromCommand(a) == EepromCommand(b)
    ensures a == b
  {
    assert a == EepromCommand(a)[|CmdShowEepromPrefix|..];
  }

  /**
    The five monitored values. Temperature is exact; the other four are kept as
    the raw words the floating-point conversions start from.
   */
  datatype Measurement = Measurement(
    temperature: real,
    voltage: uint16,
    txPower: uint16,
    rxPower: uint16,
    osnr: uint16)

  /**
    A dump `processData` can handle without an index panic: the decoder's slices
    stay in range and a decoded image reaches the OSNR word.
   */
  predicate Processable(dump: seq<uint8>) {
    Decoder.WellFramed(dump) &&
    (Decoder.Decodable(dump) ==> 16 * Decoder.Groups(dump) >= Eeprom.ImageLength)
  }

  predicate ReplyProcessable(reply: Reply<seq<uint8>>) {
    reply.Output? ==> Processable(reply.out)
  }

  /** The measurement an image holds. */
  function MeasurementOf(e: Eeprom.Image): Measurement
    requires |e| >= Eeprom.ImageLength
  {
    Measurement(
      Eeprom.Celsius(e),
      Eeprom.Word(e, Eeprom.VccOffset),
      Eeprom.Word(e, Eeprom.TxPowerOffset),
      Eeprom.Word(e, Eeprom.RxPowerOffset),
      Eeprom.Word(e, Eeprom.OsnrOffset))
  }

  /** `processData`: a decode error is passed on; otherwise all five fields are read. */
  function ProcessData(dump: seq<uint8>): (r: Result<Measurement, Reason>)
    requires Processable(dump)
    ensures r.Ok? <==> Decoder.Decode(dump).Ok?
    ensures r.Err? ==> r.error == DecodeError(Decoder.Decode(dump).error)
    ensures r.Ok? ==> r.value == MeasurementOf(Decoder.Decode(dump).value)
  {
    match Decoder.Decode(dump)
    case Ok(e) => Ok(MeasurementOf(e))
    case Err(err) => Err(DecodeError(err))
  }

  /**
    End to end: an image of 16n bytes (n at least 58, so that it reaches the OSNR
    word) printed as n separated lines is measured from the image itself.
   */
  lemma ProcessFrame(image: seq<uint8>, separators: seq<uint8>)
    requires |image| == 16 * |separators| && |image| >= Eeprom.ImageLength
    ensures Processable(Decoder.Frame(image, separators))
    ensures ProcessData(Decoder.Frame(image, separators)) == Ok(MeasurementOf(image))
  {
    Decoder.FrameRoundTrip(image, separators);
  }

  datatype Tagged = Tagged(iface: string, measurement: Measurement)
  datatype Failure = Failure(iface: string, reason: Reason)

  /** A batch: the measurements in interface order, and the joined errors (nil when empty). */
  datatype Batch = Batch(measurements: seq<Tagged>, failures: seq<Failure>)

  predicate AnswersProcessable(interfaces: seq<string>, answer: string -> Reply<seq<uint8>>) {
    forall inf :: inf in interfaces ==> ReplyProcessable(answer(EepromCommand(inf)))
  }

  /**
    One interface: open a session, run `show-eeprom`, decode and read. Each
    failure stops the interface with its own reason; only a dump that decodes
    gives a measurement, and it is the one its image holds.
   */
  function Query(inf: string, answer: string -> Reply<seq<uint8>>): (r: Result<Measurement, Reason>)
    requires ReplyProcessable(answer(EepromCommand(inf)))
    ensures r == Err(SessionError) <==> answer(EepromCommand(inf)).NoSession?
    ensures r == Err(CommandError) <==> answer(EepromCommand(inf)).CommandFailed?
    ensures r.Ok? <==> answer(EepromCommand(inf)).Output? && Decoder.Decodable(answer(EepromCommand(inf)).out)
    ensures r.Ok? ==> r.value == MeasurementOf(Decoder.Decode(answer(EepromCommand(inf)).out).value)
    ensures r.Err? && r.error.DecodeError? ==> answer(EepromCommand(inf)).Output?
  {
    match answer(EepromCommand(inf))
    case NoSession => Err(SessionError)
    case CommandFailed => Err(CommandError)
    case Output(dump) => ProcessData(dump)
  }

  /** `xs` is `ys` with some elements left out, order kept. */
  predicate Subsequence<T(==)>(xs: seq<T>, ys: seq<T>) {
    if |xs| == 0 then true
    else if |ys| == 0 then false
    else if xs[0] == ys[0] then Subsequence(xs[1..], ys[1..])
    else Subsequence(xs, ys[1..])
  }

  function Ifaces(ms: seq<Tagged>): (names: seq<string>)
    ensures |names| == |ms| && forall i :: 0 <= i < |ms| ==> names[i] == ms[i].iface
  {
    if |ms| == 0 then [] else [ms[0].iface] + Ifaces(ms[1..])
  }

  /** The outcome of querying every interface, in list order. */
  function QueryAll(interfaces: seq<string>, answer: string -> Reply<seq<uint8>>): (rs: seq<Result<Measurement, Reason>>)
    requires AnswersProcessable(interfaces, answer)
    ensures |rs| == |interfaces|
    ensures forall i :: 0 <= i < |interfaces| ==> interfaces[i] in interfaces && rs[i] == Query(interfaces[i], answer)
  {
    seq(|interfaces|, i requires 0 <= i < |interfaces| && interfaces[i] in interfaces => Query(interfaces[i], answer))
  }

  /**
    The body of the `monitorInterfaces` loop once every query has its outcome:
    a success is appended to the measurements, a failure is joined into the
    error, each in interface order.
   */
  function Collect(interfaces: seq<string>, rs: seq<Result<Measurement, Reason>>): (b: Batch)
    requires |rs| == |interfaces|
    ensures |b.measurements| + |b.failures| == |interfaces|
    ensures b.failures == [] <==> forall i :: 0 <= i < |rs| ==> rs[i].Ok?
  {
    if |interfaces| == 0 then Batch([], [])
    else
      var rest := Collect(interfaces[1..], rs[1..]);
      assert forall i :: 1 <= i < |rs| ==> rs[i] == rs[1..][i - 1];
      match rs[0]
      case Ok(m) => Batch([Tagged(interfaces[0], m)] + rest.measurements, rest.failures)
      case Err(e) => Batch(rest.measurements, [Failure(interfaces[0], e)] + rest.failures)
  }

  /**
    `monitorInterfaces`: one query per interface in list order. The queries
    are independent of each other, so running them all before sorting the
    outcomes gives the loop's result. Every interface lands in exactly one of
    the two lists, and the joined error is nil exactly when every interface
    succeeded.
   */
  function MonitorInterfaces(interfaces: seq<string>, answer: string -> Reply<seq<uint8>>): (b: Batch)
    requires AnswersProcessable(interfaces, answer)
    ensures |b.measurements| + |b.failures| == |interfaces|
    ensures b.failures == [] <==> forall i :: 0 <= i < |interfaces| ==> Query(interfaces[i], answer).Ok?
  {
    Collect(interfaces, QueryAll(interfaces, answer))
  }

  /**
    What a batch holds: every measurement is its interface's own result and
    every failure its interface's own error; with no failures, the
    measurements are the interfaces' results one for one, in order.
   */
  lemma BatchContents(interfaces: seq<string>, answer: string -> Reply<seq<uint8>>)
    requires AnswersProcessable(interfaces, answer)
    ensures var b := MonitorInterfaces(interfaces, answer);
            (forall m :: m in b.measurements ==> m.iface in interfaces && Query(m.iface, answer) == Ok(m.measurement)) &&
            (forall f :: f in b.failures ==> f.iface in interfaces && Query(f.iface, answer) == Err(f.reason)) &&
            (b.failures == [] ==> forall i :: 0 <= i < |interfaces| ==>
               b.measurements[i] == Tagged(interfaces[i], Query(interfaces[i], answer).value))
  {
    var rs := QueryAll(interfaces, answer);
    var b := Collect(interfaces, rs);
    CollectSources(interfaces, rs);
    CleanCollect(interfaces, rs);
    forall m | m in b.measurements
      ensures m.iface in interfaces && Query(m.iface, answer) == Ok(m.measurement)
    {
      var i :| 0 <= i < |rs| && interfaces[i] == m.iface && rs[i] == Ok(m.measurement);
    }
    forall f | f in b.failures
      ensures f.iface in interfaces && Query(f.iface, answer) == Err(f.reason)
    {
      var i :| 0 <= i < |rs| && interfaces[i] == f.iface && rs[i] == Err(f.reason);
    }
  }

  /** Every entry of a batch comes from the outcome at its interface's position. */
  lemma {:induction false} CollectSources(interfaces: seq<string>, rs: seq<Result<Measurement, Reason>>)
    requires |rs| == |interfaces|
    ensures var b := Collect(interfaces, rs);
            (forall m :: m in b.measurements ==>
               exists i :: 0 <= i < |rs| && interfaces[i] == m.iface && rs[i] == Ok(m.measurement)) &&
            (forall f :: f in b.failures ==>
               exists i :: 0 <= i < |rs| && interfaces[i] == f.iface && rs[i] == Err(f.reason))
  {
    if |interfaces| > 0 {
      var tail, rsTail := interfaces[1..], rs[1..];
      CollectSources(tail, rsTail);
      var rest := Collect(tail, rsTail);
      forall m | m in rest.measurements
        ensures exists i :: 0 <= i < |rs| && interfaces[i] == m.iface && rs[i] == Ok(m.measurement)
      {
        var i :| 0 <= i < |rsTail| && tail[i] == m.iface && rsTail[i] == Ok(m.measurement);
        assert interfaces[i + 1] == m.iface && rs[i + 1] == Ok(m.measurement);
      }
      forall f | f in rest.failures
        ensures exists i :: 0 <= i < |rs| && interfaces[i] == f.iface && rs[i] == Err(f.reason)
      {
        var i :| 0 <= i < |rsTail| && tail[i] == f.iface && rsTail[i] == Err(f.reason);
        assert interfaces[i + 1] == f.iface && rs[i + 1] == Err(f.reason);
      }
    }
  }

  /** With no failures, measurement i is the outcome of interface i. */
  lemma {:induction false} CleanCollect(interfaces: seq<string>, rs: seq<Result<Measurement, Reason>>)
    requires |rs| == |interfaces|
    ensures var b := Collect(interfaces, rs);
            b.failures == [] ==> forall i :: 0 <= i < |interfaces| ==>
              rs[i].Ok? && b.measurements[i] == Tagged(interfaces[i], rs[i].value)
  {
    if |interfaces| > 0 {
      CleanCollect(interfaces[1..], rs[1..]);
      var b := Collect(interfaces, rs);
      if b.failures == [] {
        forall i | 0 <= i < |interfaces|
          ensures rs[i].Ok? && b.measurements[i] == Tagged(interfaces[i], rs[i].value)
        {
          if i > 0 {
            assert interfaces[i] == interfaces[1..][i - 1] && rs[i] == rs[1..][i - 1];
          }
        }
      }
    }
  }

  /** The measured interfaces appear in list order. */
  lemma BatchOrder(interfaces: seq<string>, answer: string -> Reply<seq<uint8>>)
    requires AnswersProcessable(interfaces, answer)
    ensures Subsequence(Ifaces(MonitorInterfaces(interfaces, answer).measurements), interfaces)
  {
    CollectOrder(interfaces, QueryAll(interfaces, answer));
  }

  lemma {:induction false} CollectOrder(interfaces: seq<string>, rs: seq<Result<Measurement, Reason>>)
    requires |rs| == |interfaces|
    ensures Subsequence(Ifaces(Collect(interfaces, rs).measurements), interfaces)
  {
    if |interfaces| > 0 {
      var inf := interfaces[0];
      CollectOrder(interfaces[1..], rs[1..]);
      var rest := Collect(interfaces[1..], rs[1..]);
      assert [inf] + interfaces[1..] == interfaces;
      match rs[0]
      case Ok(m) =>
        assert Ifaces([Tagged(inf, m)] + rest.measurements) == [inf] + Ifaces(rest.measurements);
      case Err(e) =>
        SubsequenceExtend(Ifaces(rest.measurements), interfaces[1..], inf);
    }
  }

  lemma SubsequenceExtend<T>(xs: seq<T>, ys: seq<T>, y: T)
    requires Subsequence(xs, ys)
    ensures Subsequence(xs, [y] + ys)
    decreases |ys|, 1
  {
    if |xs| > 0 && xs[0] == y {
      assert ([y] + ys)[1..] == ys;
      SubsequenceDrop(xs, ys);
    } else if |xs| > 0 {
      assert ([y] + ys)[1..] == ys;
    }
  }

  lemma SubsequenceDrop<T>(xs: seq<T>, ys: seq<T>)
    requires |xs| > 0 && Subsequence(xs, ys)
    ensures Subsequence(xs[1..], ys)
    decreases |ys|, 0
  {
    if xs[0] == ys[0] {
      if |xs| > 1 {
        SubsequenceExtend(xs[1..], ys[1..], ys[0]);
        assert [ys[0]] + ys[1..] == ys;
      }
    } else {
      SubsequenceDrop(xs, ys[1..]);
      if |xs| > 1 {
        SubsequenceExtend(xs[1..], ys[1..], ys[0]);
        assert [ys[0]] + ys[1..] == ys;
      }
    }
  }
}

=== FILE: results.dfy ===
/** Failure-carrying values: Go's `(value, error)` pairs and values that may be nil. */
module Results {

  /** A Go reference or slice that may be nil. */
  datatype Option<+T> = None | Some(value: T)

  /** A Go `(value, error)` return: exactly one of the two is meaningful. */
  datatype Result<+T, +E> = Ok(value: T) | Err(error: E)
}

/** Fixed-width integers of the Go source, as subsets of `int`. */
module Bytes {

  /** Go `byte` / `uint8`. */
  type uint8 = x: int | 0 <= x < 256

  /** Go `int8`, the width of the persisted device status. */
  type int8 = x: int | -128 <= x < 128

  /** Go `int16`. */
  type int16 = x: int | -32768 <= x < 32768

  /** Go `uint16`. */
  type uint16 = x: int | 0 <= x < 65536
}

/** Identities about sequences that the solver does not find on its own. */
module Seqs {

  lemma SliceOfSuffix<T>(s: seq<T>, i: nat, n: nat)
    requires i + n <= |s|
    ensures s[i..][..n] == s[i..i + n]
  {
  }

  lemma DropOfSuffix<T>(s: seq<T>, i: nat, n: nat)
    requires i + n <= |s|
    ensures s[i..][n..] == s[i + n..]
  {
  }

  lemma AppendAssoc<T>(a: seq<T>, b: seq<T>, c: seq<T>)
    ensures (a + b) + c == a + (b + c)
  {
  }

  lemma ConsParts<T>(x: T, xs: seq<T>)
    ensures ([x] + xs)[0] == x && ([x] + xs)[1..] == xs
  {
  }

  lemma PrefixCons<T>(s: seq<T>, k: nat)
    requires k + 1 <= |s|
    ensures s[..k + 1] == [s[0]] + s[1..][..k]
  {
  }

  /** The pieces laid end to end, in order. */
  function Concat<T>(pieces: seq<seq<T>>): seq<T> {
    if |pieces| == 0 then [] else pieces[0] + Concat(pieces[1..])
  }
}

=== FILE: sessions.dfy ===
/**
  Session cookies and the gate in front of the pages.

  The store of ems/cookies/cookies.go prunes expired sessions on every call.
  The older frontend (frontend/cmds/cookie.go, frontend/cmds/server.go,
  frontend/api/auth.go, frontend/handlers.go) keeps a bare map and drops a
  session only when it is presented. The clock and the UUID generator are
  parameters: one instant per operation, one token per created session.
  Instants count seconds here.
 */
module Sessions {
  import opened Results
  import Storage
  import Forms

  type Instant = Storage.Instant

  datatype Cookie = Cookie(login: string, expires: Instant)

  /** Session token to session. */
  type Jar = map<string, Cookie>

  /** `cookie.isExpired`: the expiry lies strictly before now. */
  predicate Expired(c: Cookie, now: Instant) {
    c.expires < now
  }

  /** No stored session has expired at `now`. */
  predicate Live(jar: Jar, now: Instant) {
    forall t :: t in jar ==> !Expired(jar[t], now)
  }

  /** The token a request presents, as a set. */
  function Presented(token: Option<string>): set<string> {
    if token.Some? then {token.value} else {}
  }

  /** Outside `except`, `after` holds exactly the sessions of `before`. */
  ghost predicate KeepsOthers(before: Jar, after: Jar, except: set<string>) {
    forall t :: t !in except ==> (t in after <==> t in before) && (t in after ==> after[t] == before[t])
  }

  /** The request presents a stored session that has not expired. */
  predicate Presents(jar: Jar, token: Option<string>, now: Instant) {
    token.Some? && token.value in jar && !Expired(jar[token.value], now)
  }

  /** The sessions of `jar` still live at `now`. */
  function Prune(jar: Jar, now: Instant): (live: Jar)
    ensures Live(live, now)
    ensures forall t :: t in jar && !Expired(jar[t], now) ==> t in live && live[t] == jar[t]
    ensures live.Keys <= jar.Keys
  {
    map t | t in jar && !Expired(jar[t], now) :: jar[t]
  }

  /** `pruneExpired`: the range loop that deletes every expired entry as it goes. */
  method PruneExpired(jar: Jar, now: Instant) returns (live: Jar)
    ensures live == Prune(jar, now)
  {
    live := jar;
    var pending := jar.Keys;
    while pending != {}
      invariant pending <= jar.Keys
      invariant forall t :: t in live <==> t in jar && (t in pending || !Expired(jar[t], now))
      invariant forall t :: t in live ==> live[t] == jar[t]
      decreases |pending|
    {
      var t :| t in pending;
      if Expired(jar[t], now) {
        live := live - {t};
      }
      pending := pending - {t};
    }
  }

  /** Pruning keeps a live jar as it is, so pruning twice is pruning once. */
  lemma {:induction false} PruneLive(jar: Jar, now: Instant)
    ensures Live(jar, now) ==> Prune(jar, now) == jar
    ensures Prune(Prune(jar, now), now) == Prune(jar, now)
  {
    if Live(jar, now) {
      assert Prune(jar, now).Keys == jar.Keys;
    }
    var p := Prune(jar, now);
    assert Prune(p, now).Keys == p.Keys;
  }

  // ---------------------------------------------------------------------------
  // ems/cookies

  datatype Store = Store(expiration: int, cookies: Jar)

  /**
    `Store.Create`: prune, then store the new token for `user` until
    `now + expiration`. A fresh token adds exactly one session.
   */
  function Create(s: Store, token: string, user: string, now: Instant): (s': Store)
    ensures s'.expiration == s.expiration
    ensures token in s'.cookies && s'.cookies[token] == Cookie(user, now + s.expiration)
    ensures KeepsOthers(Prune(s.cookies, now), s'.cookies, {token})
    ensures token !in Prune(s.cookies, now) ==> |s'.cookies| == |Prune(s.cookies, now)| + 1
  {
    Store(s.expiration, Prune(s.cookies, now)[token := Cookie(user, now + s.expiration)])
  }

  /**
    `Store.Delete`: prune; then, when a token is given, forget it. The other
    live sessions stay.
   */
  function Delete(s: Store, token: Option<string>, now: Instant): (s': Store)
    ensures s'.expiration == s.expiration
    ensures KeepsOthers(Prune(s.cookies, now), s'.cookies, Presented(token))
    ensures token.Some? ==> token.value !in s'.cookies
    ensures token.None? ==> s'.cookies == Prune(s.cookies, now)
  {
    var live := Prune(s.cookies, now);
    match token
    case None => Store(s.expiration, live)
    case Some(t) => Store(s.expiration, live - {t})
  }

  /** Deleting the same token twice is deleting it once. */
  lemma DeleteIdempotent(s: Store, token: Option<string>, now: Instant)
    ensures Delete(Delete(s, token, now), token, now) == Delete(s, token, now)
  {
    var once := Delete(s, token, now);
    PruneLive(once.cookies, now);
  }

  /**
    `Store.IsSignedIn`: prune; true exactly when the request presents a stored
    session that has not expired, and otherwise the presented token is forgotten.
   */
  function IsSignedIn(s: Store, token: Option<string>, now: Instant): (r: (Store, bool))
    ensures r.1 <==> Presents(s.cookies, token, now)
    ensures r.0.expiration == s.expiration
    ensures KeepsOthers(Prune(s.cookies, now), r.0.cookies, Presented(token))
    ensures token.Some? ==> (token.value in r.0.cookies <==> r.1)
  {
    var live := Prune(s.cookies, now);
    match token
    case None => (Store(s.expiration, live), false)
    case Some(t) =>
      if t !in live || Expired(live[t], now) then (Store(s.expiration, live - {t}), false)
      else (Store(s.expiration, live), true)
  }

  /**
    After any operation of the store no session in it has expired at that
    operation's instant, provided sessions are created with a non-negative
    lifetime.
   */
  lemma StoreStaysLive(s: Store, token: string, user: string, presented: Option<string>, now: Instant)
    requires s.expiration >= 0
    ensures Live(Create(s, token, user, now).cookies, now)
    ensures Live(Delete(s, presented, now).cookies, now)
    ensures Live(IsSignedIn(s, presented, now).0.cookies, now)
  {
  }

  /**
    The repository's store tests: one session after creating in an empty
    store; none after deleting it again; signed in with its token within the
    lifetime; not signed in without a cookie.
   */
  lemma StoreTests(expiration: int, token: string, now: Instant, later: Instant)
    requires expiration > 0 && now <= later <= now + expiration
    ensures var s := Create(Store(expiration, map[]), token, "test", now);
            |s.cookies| == 1 &&
            |Delete(s, Some(token), later).cookies| == 0 &&
            IsSignedIn(s, Some(token), later).1 &&
            !IsSignedIn(Store(expiration, map[]), None, now).1
  {
    var s := Create(Store(expiration, map[]), token, "test", now);
    assert s.cookies.Keys == {token};
    assert Delete(s, Some(token), later).cookies.Keys == {};
  }

  // ---------------------------------------------------------------------------
  // the older frontend

  /** `15 * time.Minute`. */
  const SessionLifetime: int := 15 * 60

  /** `createCookie`: the new token maps to `user` for fifteen minutes; nothing else changes. */
  function CreateCookie(jar: Jar, token: string, user: string, now: Instant): (jar': Jar)
    ensures token in jar' && jar'[token] == Cookie(user, now + SessionLifetime)
    ensures KeepsOthers(jar, jar', {token})
  {
    jar[token := Cookie(user, now + SessionLifetime)]
  }

  /**
    `deleteCookie`: without a session cookie the map is left alone (the
    request is redirected); with one, exactly that token is forgotten.
   */
  function DeleteCookie(jar: Jar, token: Option<string>): (jar': Jar)
    ensures token.None? ==> jar' == jar
    ensures token.Some? ==> token.value !in jar'
    ensures KeepsOthers(jar, jar', Presented(token))
  {
    match token
    case None => jar
    case Some(t) => jar - {t}
  }

  /**
    `isSignedIn` of frontend/cmds/server.go and frontend/api/auth.go: true
    exactly when the presented session is stored and live; otherwise the
    presented token is forgotten. Nothing is pruned.
   */
  function JarSignedIn(jar: Jar, token: Option<string>, now: Instant): (r: (Jar, bool))
    ensures r.1 <==> Presents(jar, token, now)
    ensures r.1 || token.None? ==> r.0 == jar
    ensures !r.1 && token.Some? ==> r.0 == DeleteCookie(jar, token)
  {
    match token
    case None => (jar, false)
    case Some(t) =>
      if t !in jar || Expired(jar[t], now) then (jar - {t}, false)
      else (jar, true)
  }

  /**
    `IsSignedIn` of frontend/handlers.go: an unknown token is left alone and
    only an expired one is deleted.
   */
  function HandlersSignedIn(jar: Jar, token: Option<string>, now: Instant): (r: (Jar, bool))
    ensures r.1 <==> Presents(jar, token, now)
  {
    match token
    case None => (jar, false)
    case Some(t) =>
      if t !in jar then (jar, false)
      else if Expired(jar[t], now) then (jar - {t}, false)
      else (jar, true)
  }

  /**
    Deleting a token that is not stored changes nothing, so both older checks
    have the same effect; and they answer as the pruning store does, though
    the store forgets every expired session while they forget at most one.
   */
  lemma SignedInChecksAgree(jar: Jar, token: Option<string>, now: Instant, expiration: int)
    ensures HandlersSignedIn(jar, token, now) == JarSignedIn(jar, token, now)
    ensures JarSignedIn(jar, token, now).1 == IsSignedIn(Store(expiration, jar), token, now).1
    ensures |jar.Keys - JarSignedIn(jar, token, now).0.Keys| <= 1
  {
    if token.Some? && token.value !in jar {
      assert jar - {token.value} == jar;
    }
    var after := JarSignedIn(jar, token, now).0;
    assert jar.Keys - after.Keys <= Presented(token);
    assert |Presented(token)| <= 1;
    SubsetCard(jar.Keys - after.Keys, Presented(token));
  }

  lemma SubsetCard<T>(a: set<T>, b: set<T>)
    requires a <= b
    ensures |a| <= |b|
  {
    if a != {} {
      var x :| x in a;
      SubsetCard(a - {x}, b - {x});
    }
  }

  // ---------------------------------------------------------------------------
  // the auth middleware

  const GetSignInOperation: string := "GetSignin"
  const PostSignInOperation: string := "PostSignin"
  /** Operation names of the static files in ems/api/middleware.go. */
  const EmsStyleOperation: string := "GetStaticStyleCss"
  const EmsFaviconOperation: string := "GetStaticFaviconIco"
  /** Operation names of the static files in frontend/api/auth.go. */
  const FrontStyleOperation: string := "GetStyleCss"
  const FrontFaviconOperation: string := "GetFaviconIco"

  /** What the middleware does with a request. */
  datatype Gate = CallHandler | Redirect(location: string)

  predicate IsSignInOperation(op: string) {
    op == GetSignInOperation || op == PostSignInOperation
  }

  /** Operations reachable without a session. */
  predicate Public(op: string, style: string, favicon: string) {
    IsSignInOperation(op) || op == style || op == favicon
  }

  /**
    The decision of `NewAuthMiddleware` given whether the request is signed
    in: sign-in pages send a signed-in user home; public operations and
    signed-in requests reach the handler; everything else goes to sign-in.
   */
  function AuthDecision(op: string, style: string, favicon: string, signedIn: bool): (g: Gate)
    ensures g == Redirect("/") <==> IsSignInOperation(op) && signedIn
    ensures g == CallHandler <==> (Public(op, style, favicon) || signedIn) && !(IsSignInOperation(op) && signedIn)
    ensures g == Redirect("/signin") <==> !Public(op, style, favicon) && !signedIn
  {
    if IsSignInOperation(op) && signedIn then Redirect("/")
    else if IsSignInOperation(op) || op == style || op == favicon || signedIn then CallHandler
    else Redirect("/signin")
  }

  /**
    `NewAuthMiddleware` of ems/api/middleware.go on one request: the session
    check, which prunes the store, runs once for sign-in and protected
    operations and not at all for the static files.
   */
  function EmsAuth(op: string, s: Store, token: Option<string>, now: Instant): (r: (Gate, Store))
    ensures r.0 == AuthDecision(op, EmsStyleOperation, EmsFaviconOperation, Presents(s.cookies, token, now))
    ensures op == EmsStyleOperation || op == EmsFaviconOperation ==> r.1 == s
    ensures s.expiration >= 0 ==> Live(r.1.cookies, now) || op == EmsStyleOperation || op == EmsFaviconOperation
  {
    if IsSignInOperation(op) then
      var (s', signedIn) := IsSignedIn(s, token, now);
      (if signedIn then Redirect("/") else CallHandler, s')
    else if op == EmsStyleOperation || op == EmsFaviconOperation then (CallHandler, s)
    else
      var (s', signedIn) := IsSignedIn(s, token, now);
      (if signedIn then CallHandler else Redirect("/signin"), s')
  }

  /** `NewAuthMiddleware` of frontend/api/auth.go, over the bare map. */
  function FrontAuth(op: string, jar: Jar, token: Option<string>, now: Instant): (r: (Gate, Jar))
    ensures r.0 == AuthDecision(op, FrontStyleOperation, FrontFaviconOperation, Presents(jar, token, now))
    ensures KeepsOthers(jar, r.1, Presented(token))
    ensures r.0 == CallHandler && !Public(op, FrontStyleOperation, FrontFaviconOperation) ==> r.1 == jar
  {
    if IsSignInOperation(op) then
      var (jar', signedIn) := JarSignedIn(jar, token, now);
      (if signedIn then Redirect("/") else CallHandler, jar')
    else if op == FrontStyleOperation || op == FrontFaviconOperation then (CallHandler, jar)
    else
      var (jar', signedIn) := JarSignedIn(jar, token, now);
      (if signedIn then CallHandler else Redirect("/signin"), jar')
  }

  /** A signed-in user is never sent to the sign-in page, by either generation. */
  lemma SignedInNeverSentToSignIn(op: string, s: Store, jar: Jar, token: Option<string>, now: Instant)
    ensures Presents(s.cookies, token, now) ==> EmsAuth(op, s, token, now).0 != Redirect("/signin")
    ensures Presents(jar, token, now) ==> FrontAuth(op, jar, token, now).0 != Redirect("/signin")
  {
  }

  /** What the logger middleware gives back: the wrapped handler's response and whether it wrote a log line. */
  datatype Logged<T> = Logged(response: T, logged: bool)

  /**
    `NewLoggerMiddleware` on one request: it logs every operation but the two
    static files and always passes the handler's response on unchanged. The
    operations it keeps quiet about are exactly those the auth middleware lets
    through whether or not the request is signed in.
   */
  function Logger<T>(op: string, response: T): (r: Logged<T>)
    ensures r.response == response
    ensures !r.logged <==> forall signedIn: bool :: AuthDecision(op, EmsStyleOperation, EmsFaviconOperation, signedIn) == CallHandler
  {
    if op != EmsFaviconOperation && op != EmsStyleOperation then
      GuardedWhenLogged(op);
      Logged(response, true)
    else
      Logged(response, false)
  }

  /** A logged operation is either a sign-in page or protected, so some session state turns it away. */
  lemma GuardedWhenLogged(op: string)
    requires op != EmsFaviconOperation && op != EmsStyleOperation
    ensures AuthDecision(op, EmsStyleOperation, EmsFaviconOperation, true) != CallHandler ||
            AuthDecision(op, EmsStyleOperation, EmsFaviconOperation, false) != CallHandler
  {
    if IsSignInOperation(op) {
      assert AuthDecision(op, EmsStyleOperation, EmsFaviconOperation, true) == Redirect("/");
    } else {
      assert AuthDecision(op, EmsStyleOperation, EmsFaviconOperation, false) == Redirect("/signin");
    }
  }

  // ---------------------------------------------------------------------------
  // the sign-in page of frontend/cmds/server.go

  datatype Page = GoTo(location: string) | SignInForm(message: string)

  datatype Attempt = Attempt(login: string, password: string)

  /**
    `signInHtml` with the credential check corrected to configured users: a
    signed-in request goes home; a posted attempt that passes creates a
    session under the new token and goes home; a failed one shows
    "Wrong credentials, try again"; a plain visit shows the empty form.
   */
  function SignInPage(jar: Jar, token: Option<string>, post: Option<Attempt>, users: map<string, string>, newToken: string, now: Instant): (r: (Page, Jar))
    ensures Presents(jar, token, now) ==> r == (GoTo("/"), jar)
    ensures !Presents(jar, token, now) && post.Some? && Forms.SignInAccepted(users, post.value.login, post.value.password) ==>
              r.0 == GoTo("/") && newToken in r.1 && r.1[newToken].login == post.value.login
    ensures r.0 == GoTo("/") && !Presents(jar, token, now) ==>
              post.Some? && post.value.login in users && users[post.value.login] == post.value.password
    ensures r.0.SignInForm? ==> KeepsOthers(jar, r.1, Presented(token))
    ensures !Presents(jar, token, now) ==>
              (r.0 == GoTo("/") <==> post.Some? && Forms.SignInAccepted(users, post.value.login, post.value.password))
    ensures r.0 != GoTo("/") ==>
              r == (SignInForm(if post.Some? then "Wrong credentials, try again" else ""), JarSignedIn(jar, token, now).0)
  {
    var (jar', signedIn) := JarSignedIn(jar, token, now);
    if signedIn then (GoTo("/"), jar')
    else match post
      case None => (SignInForm(""), jar')
      case Some(a) =>
        if Forms.SignInAccepted(users, a.login, a.password) then (GoTo("/"), CreateCookie(jar', newToken, a.login, now))
        else (SignInForm("Wrong credentials, try again"), jar')
  }
}

=== FILE: storage.dfy ===
/**
  Device records and the status line the inventory shows for each of them.

  Four generations of the table exist: ems/storage/device.go and
  storage/device.go (identical), utils/device.go (no Warning; every status but
  Undefined shows the timestamp) and common/database.go (a "Never" timestamp
  also means never connected; status 2 reads as a credentials problem). Each is
  modelled as a function from the stored status and formatted timestamp to the
  text, and each is related to one independent reader of status lines.
 */
module Storage {
  import opened Bytes
  import opened Results

  /** `iota - 1` numbering shared by every generation. */
  const StatusUndefined: int8 := -1
  const StatusOK: int8 := 0
  const StatusErrorSSH: int8 := 1
  const StatusErrorKeyfile: int8 := 2
  const StatusWarning: int8 := 3
  /** utils/device.go names the fourth constant STATUS_UNKNOWN instead of a warning. */
  const UtilsStatusUnknown: int8 := 3

  /** An abstract point in time; `time.Now` is a parameter wherever it is read. */
  type Instant = int

  datatype Device = Device(
    id: nat,
    hostname: string,
    ipAddress: string,
    login: string,
    password: string,
    keyfile: seq<uint8>,
    connected: Instant,
    lastStatus: int8)

  /** What a status line tells the reader. */
  datatype Label =
    | NeverConnected
    | Connected
    | SshSessionError
    | KeyfileError
    | SomeErrors
    | Unknown
    | CredentialsMisconfigured

  /** A recognised status line: its label and, when printed, the timestamp. */
  datatype Shown = Shown(kind: Label, connected: Option<string>)

  const NeverConnectedText: string := "STATUS UNDEFINED (NEVER CONNECTED)"
  const UnknownText: string := "STATUS UNKNOWN"

  /** The text in front of the timestamp, for the labels that print one. */
  function Prefix(l: Label): string
    requires l != NeverConnected
  {
    match l
    case Connected => "STATUS OK (last connection: "
    case SshSessionError => "SSH SESSION ERROR (last connection: "
    case KeyfileError => "KEYFILE ERROR (last connection: "
    case SomeErrors => "SOME ERRORS OCCURRED (last connection: "
    case Unknown => "STATUS UNKNOWN (last connection: "
    case CredentialsMisconfigured => "CREDENTIALS MISCONFIGURED (last connection: "
  }

  /** `fmt.Sprintf("<prefix>%s)", connected)`. */
  function Stamped(l: Label, connected: string): string
    requires l != NeverConnected
  {
    Prefix(l) + connected + ")"
  }

  const StampedLabels: seq<Label> :=
    [Connected, SshSessionError, KeyfileError, SomeErrors, Unknown, CredentialsMisconfigured]

  /** The timestamp of `msg` if it is a stamped line for `l`. */
  function Strip(msg: string, l: Label): Option<string>
    requires l != NeverConnected
  {
    var p := Prefix(l);
    if |p| < |msg| && p <= msg && msg[|msg| - 1] == ')' then Some(msg[|p|..|msg| - 1]) else None
  }

  function StripFirst(msg: string, labels: seq<Label>): Option<Shown>
    requires NeverConnected !in labels
  {
    if |labels| == 0 then None
    else match Strip(msg, labels[0])
      case Some(ts) => Some(Shown(labels[0], Some(ts)))
      case None => StripFirst(msg, labels[1..])
  }

  /** Reads back any status line produced by any generation of the table. */
  function ReadStatus(msg: string): Option<Shown> {
    if msg == NeverConnectedText then Some(Shown(NeverConnected, None))
    else if msg == UnknownText then Some(Shown(Unknown, None))
    else StripFirst(msg, StampedLabels)
  }

  /** Characters 0, 1 and 7 tell every prefix apart. */
  function Key(s: string): (char, char, char)
    requires |s| >= 8
  {
    (s[0], s[1], s[7])
  }

  function PrefixKey(l: Label): (char, char, char) {
    match l
    case NeverConnected => ('S', 'T', 'U')
    case Connected => ('S', 'T', 'O')
    case SshSessionError => ('S', 'S', 'S')
    case KeyfileError => ('K', 'E', ' ')
    case SomeErrors => ('S', 'O', 'R')
    case Unknown => ('S', 'T', 'U')
    case CredentialsMisconfigured => ('C', 'R', 'I')
  }

  lemma PrefixKeyOf(l: Label)
    requires l != NeverConnected
    ensures |Prefix(l)| >= 27 && Key(Prefix(l)) == PrefixKey(l)
    ensures Prefix(l)[9] != NeverConnectedText[9]
  {
    match l
    case Connected => PrefixKeyOfConnected();
    case SshSessionError => PrefixKeyOfSshSessionError();
    case KeyfileError => PrefixKeyOfKeyfileError();
    case SomeErrors => PrefixKeyOfSomeErrors();
    case Unknown => PrefixKeyOfUnknown();
    case CredentialsMisconfigured => PrefixKeyOfCredentialsMisconfigured();
  }

  lemma PrefixKeyOfConnected()
    ensures |Prefix(Connected)| >= 27 && Key(Prefix(Connected)) == PrefixKey(Connected)
    ensures Prefix(Connected)[9] != NeverConnectedText[9]
  {
    var p := "STATUS OK (last connection: ";
    assert p[0] == 'S' && p[1] == 'T' && p[7] == 'O' && p[9] == ' ';
    assert NeverConnectedText[9] == 'D';
  }

  lemma PrefixKeyOfSshSessionError()
    ensures |Prefix(SshSessionError)| >= 27 && Key(Prefix(SshSessionError)) == PrefixKey(SshSessionError)
    ensures Prefix(SshSessionError)[9] != NeverConnectedText[9]
  {
    var p := "SSH SESSION ERROR (last connection: ";
    assert p[0] == 'S' && p[1] == 'S' && p[7] == 'S' && p[9] == 'O';
    assert NeverConnectedText[9] == 'D';
  }

  lemma PrefixKeyOfKeyfileError()
    ensures |Prefix(KeyfileError)| >= 27 && Key(Prefix(KeyfileError)) == PrefixKey(KeyfileError)
    ensures Prefix(KeyfileError)[9] != NeverConnectedText[9]
  {
    var p := "KEYFILE ERROR (last connection: ";
    assert p[0] == 'K' && p[1] == 'E' && p[7] == ' ' && p[9] == 'R';
    assert NeverConnectedText[9] == 'D';
  }

  lemma PrefixKeyOfSomeErrors()
    ensures |Prefix(SomeErrors)| >= 27 && Key(Prefix(SomeErrors)) == PrefixKey(SomeErrors)
    ensures Prefix(SomeErrors)[9] != NeverConnectedText[9]
  {
    var p := "SOME ERRORS OCCURRED (last connection: ";
    assert p[0] == 'S' && p[1] == 'O' && p[7] == 'R' && p[9] == 'R';
    assert NeverConnectedText[9] == 'D';
  }

  lemma PrefixKeyOfUnknown()
    ensures |Prefix(Unknown)| >= 27 && Key(Prefix(Unknown)) == PrefixKey(Unknown)
    ensures Prefix(Unknown)[9] != NeverConnectedText[9]
  {
    var p := "STATUS UNKNOWN (last connection: ";
    assert p[0] == 'S' && p[1] == 'T' && p[7] == 'U' && p[9] == 'K';
    assert NeverConnectedText[9] == 'D';
  }

  lemma PrefixKeyOfCredentialsMisconfigured()
    ensures |Prefix(CredentialsMisconfigured)| >= 27 && Key(Prefix(CredentialsMisconfigured)) == PrefixKey(CredentialsMisconfigured)
    ensures Prefix(CredentialsMisconfigured)[9] != NeverConnectedText[9]
  {
    var p := "CREDENTIALS MISCONFIGURED (last connection: ";
    assert p[0] == 'C' && p[1] == 'R' && p[7] == 'I' && p[9] == 'L';
    assert NeverConnectedText[9] == 'D';
  }

  lemma ReadFixed()
    ensures ReadStatus(NeverConnectedText) == Some(Shown(NeverConnected, None))
    ensures ReadStatus(UnknownText) == Some(Shown(Unknown, None))
  {
    assert NeverConnectedText != UnknownText by {
      assert |NeverConnectedText| != |UnknownText|;
    }
  }

  /** A stamped line is read back with its own label and exactly its timestamp. */
  lemma ReadStamped(l: Label, connected: string)
    requires l != NeverConnected
    ensures ReadStatus(Stamped(l, connected)) == Some(Shown(l, Some(connected)))
  {
    var msg := Stamped(l, connected);
    StampedShape(l, connected);
    StampedNotFixed(l, connected);
    StripFinds(msg, StampedLabels, l);
  }

  lemma StampedShape(l: Label, connected: string)
    requires l != NeverConnected
    ensures var msg := Stamped(l, connected);
            |msg| > |Prefix(l)| && Prefix(l) <= msg && msg[|msg| - 1] == ')' &&
            msg[|Prefix(l)|..|msg| - 1] == connected
  {
    var msg := Stamped(l, connected);
    var p := Prefix(l);
    assert msg[..|p|] == p;
    assert msg[|p|..|msg| - 1] == connected;
  }

  /** No stamped line is one of the two fixed texts. */
  lemma StampedNotFixed(l: Label, connected: string)
    requires l != NeverConnected
    ensures Stamped(l, connected) != NeverConnectedText && Stamped(l, connected) != UnknownText
  {
    var msg := Stamped(l, connected);
    PrefixKeyOf(l);
    if |msg| == |NeverConnectedText| {
      assert msg[9] == Prefix(l)[9];
    }
  }

  lemma {:induction false} StripFinds(msg: string, labels: seq<Label>, l: Label)
    requires NeverConnected !in labels && l in labels
    requires |msg| > |Prefix(l)| && Prefix(l) <= msg && msg[|msg| - 1] == ')'
    ensures StripFirst(msg, labels) == Some(Shown(l, Some(msg[|Prefix(l)|..|msg| - 1])))
    decreases |labels|
  {
    if labels[0] != l {
      StripMisses(msg, l, labels[0]);
      StripFinds(msg, labels[1..], l);
    }
  }

  /** A line that starts with one label's prefix starts with no other's. */
  lemma StripMisses(msg: string, l: Label, other: Label)
    requires l != NeverConnected && other != NeverConnected && other != l
    requires |msg| > |Prefix(l)| && Prefix(l) <= msg
    ensures Strip(msg, other) == None
  {
    PrefixKeyOf(l);
    PrefixKeyOf(other);
    PrefixKeysDiffer(l, other);
    OtherKeyMisses(Prefix(l), Prefix(other), msg);
  }

  /** A text that starts with `p` does not start with a `q` of another key. */
  lemma OtherKeyMisses(p: string, q: string, msg: string)
    requires |p| >= 8 && |q| >= 8 && Key(p) != Key(q) && p <= msg
    ensures !(q <= msg)
  {
    assert Key(msg) == Key(p);
  }

  /** The key tells the stamped labels apart. */
  lemma PrefixKeysDiffer(a: Label, b: Label)
    requires a != NeverConnected && b != NeverConnected && a != b
    ensures PrefixKey(a) != PrefixKey(b)
  {
  }

  /** What the ems table means for each stored status. */
  function EmsMeaning(status: int8, connected: string): Shown {
    if status == StatusUndefined then Shown(NeverConnected, None)
    else if status == StatusOK then Shown(Connected, Some(connected))
    else if status == StatusErrorSSH then Shown(SshSessionError, Some(connected))
    else if status == StatusErrorKeyfile then Shown(KeyfileError, Some(connected))
    else if status == StatusWarning then Shown(SomeErrors, Some(connected))
    else Shown(Unknown, None)
  }

  /**
    `Device.StatusConnected` of ems/storage/device.go (and of storage/device.go,
    the same table): the connection time is formatted by the injected RFC 3339
    formatter.
   */
  function StatusConnected(d: Device, rfc3339: Instant -> string): (msg: string)
    ensures ReadStatus(msg) == Some(EmsMeaning(d.lastStatus, rfc3339(d.connected)))
    ensures !(StatusUndefined <= d.lastStatus <= StatusWarning) ==> msg == UnknownText
  {
    var connected := rfc3339(d.connected);
    var m := EmsMeaning(d.lastStatus, connected);
    if m.kind == NeverConnected then ReadFixed(); NeverConnectedText
    else if m.connected == None then ReadFixed(); UnknownText
    else ReadStamped(m.kind, connected); Stamped(m.kind, connected)
  }

  /** Known statuses give pairwise different lines, whatever the timestamps. */
  lemma {:induction false} StatusConnectedDistinct(d: Device, d': Device, rfc3339: Instant -> string)
    requires StatusUndefined <= d.lastStatus <= StatusWarning
    requires d.lastStatus != d'.lastStatus
    ensures StatusConnected(d, rfc3339) != StatusConnected(d', rfc3339)
  {
    var ts, ts' := rfc3339(d.connected), rfc3339(d'.connected);
    assert EmsMeaning(d.lastStatus, ts).kind != EmsMeaning(d'.lastStatus, ts').kind;
  }

  /** What the utils table means: only Undefined omits the timestamp. */
  function UtilsMeaning(status: int8, connected: string): Shown {
    if status == StatusUndefined then Shown(NeverConnected, None)
    else if status == StatusOK then Shown(Connected, Some(connected))
    else if status == StatusErrorSSH then Shown(SshSessionError, Some(connected))
    else if status == StatusErrorKeyfile then Shown(KeyfileError, Some(connected))
    else Shown(Unknown, Some(connected))
  }

  /** `Device.StatusConnected` of utils/device.go, where Connected is already text. */
  function UtilsStatusConnected(status: int8, connected: string): (msg: string)
    ensures ReadStatus(msg) == Some(UtilsMeaning(status, connected))
    ensures status != StatusUndefined ==> |msg| > |connected| && msg[|msg| - |connected| - 1..|msg| - 1] == connected
  {
    var m := UtilsMeaning(status, connected);
    if m.kind == NeverConnected then ReadFixed(); NeverConnectedText
    else
      ReadStamped(m.kind, connected);
      var msg := Stamped(m.kind, connected);
      assert msg[|msg| - |connected| - 1..|msg| - 1] == connected;
      msg
  }

  /**
    What the common table means: status -1 or the placeholder "Never" means
    never connected, ahead of every other case; status 2 is a credentials
    problem; every other line embeds Connected verbatim.
   */
  function CommonMeaning(status: int, connected: string): Shown {
    if status == -1 || connected == "Never" then Shown(NeverConnected, None)
    else if status == 0 then Shown(Connected, Some(connected))
    else if status == 1 then Shown(SshSessionError, Some(connected))
    else if status == 2 then Shown(CredentialsMisconfigured, Some(connected))
    else Shown(Unknown, Some(connected))
  }

  /** `Device.GetStatusConnected` of common/database.go. */
  function CommonStatusConnected(status: int, connected: string): (msg: string)
    ensures ReadStatus(msg) == Some(CommonMeaning(status, connected))
    ensures connected == "Never" ==> msg == NeverConnectedText
  {
    var m := CommonMeaning(status, connected);
    if m.kind == NeverConnected then ReadFixed(); NeverConnectedText
    else ReadStamped(m.kind, connected); Stamped(m.kind, connected)
  }

  /**
    The generations agree on -1, 0 and 1 and part ways from 2 on: status 2 is a
    keyfile error in ems and utils but a credentials problem in common, and
    status 3 is a warning only in ems.
   */
  lemma TablesAgreeOnLowStatuses(status: int8, connected: string)
    requires -1 <= status <= 1 && connected != "Never"
    ensures ReadStatus(UtilsStatusConnected(status, connected)) == ReadStatus(CommonStatusConnected(status as int, connected))
    ensures status == StatusUndefined || EmsMeaning(status, connected) == UtilsMeaning(status, connected)
  {
  }
}
